=== FILE: README.md ===
# Facility booking backend — a Dafny model

This project models the core of a NestJS/Prisma facility-booking backend. Clients book
a space together with one unit of a countable resource for a time window.

The reservation engine is the centre of the model:
- admission of a booking: the three lookups, then checks in a fixed order for dates,
  active space, active resource, active client, available quantity, and no overlap on the
  space;
- the inventory decrement, written back through the resource update;
- the guarded status machine of `update`;
- the cancel operation.

Around the engine sit the entity services it relies on:
- spaces: create, filtered and paginated listing, lookup, update, soft delete;
- resources: the same operations, with a name-clash rule on update;
- clients: registration, with validation, duplicate lookup and reactivation;
- users: registration, update and soft delete.

Finally, the model covers the field validators: the CPF and client phone patterns, and
the password and user phone patterns.

Everything is pure. A table is a map from auto-incremented ids to immutable records
(`Tables.Table`). Every operation is a function from the stores and a request to a
`Result`: either the new stores and the written record, or an error kind with its message.
A rejected request returns no store, so "a rejection writes nothing" holds by construction.

Abstractions:
- Time is an integer, and the clock is a `now` parameter.
- Password hashing and the email validator are function parameters.
- The database's unique indexes are invariants proved to be preserved: space names,
  resource names, client CPF and email, and user email. Where a service's own checks can
  let a duplicate through to the write (a space renamed to the empty name), the index's
  refusal is modelled as a store error (`Spaces.Write`).
- The store answers without an explicit ordering, and the model fixes one: `findFirst`
  returns the matching row with the lowest id (`Tables.First`), and `findMany` lists rows
  in increasing id order (`Tables.Entries`), which the listings and their pages rely on.
- JavaScript truthiness is written out: a string filter applies when present and
  non-empty, and a number filter when present and non-zero.
- Each regular expression is a hand-written predicate. A lemma relates it to the grammar
  the pattern describes.

Modules, one file each:

| module | file |
|---|---|
| `Results` | results.dfy |
| `Tables` | tables.dfy |
| `Text` | text.dfy |
| `Pagination` | pagination.dfy |
| `ClientFormats` | client_formats.dfy |
| `UserFormats` | user_formats.dfy |
| `Spaces` | spaces.dfy |
| `Resources` | resources.dfy |
| `Clients` | clients.dfy |
| `Users` | users.dfy |
| `Reservations` | reservations.dfy |

Points where the code behaves differently from what a reader might expect; the model
follows the code, except for the client lookup described below:
- **Create copies the status.** Create stores the request's status: a new booking is not
  forced to OPEN (`Reservations.Create` ensures `reservation == Requested(dto)`).
- **Failed lookups become a generic error.** A missing space or resource goes through
  create's error handler. It comes out as the generic "Error creating reservation" bad
  request, not as "not found". The model's client gateway refuses a missing client the
  same way, which the stub lookup of the code never does (see "Left out").
- **Null dates in an update.** Two explicit null dates compare as equal in the date check
  and are refused as inverted; a single null date passes the check, and the write of a null
  to a required date column fails in the store, outside the error handler
  (`Reservations.NullDatesRefused`).
- **Update reopens.** Approval needs an OPEN booking and closing an APPROVED one, but a
  request for OPEN, or with no status at all, is accepted from any current status, so
  closed and canceled bookings can be reopened (`Reservations.AnyStatusReopens`).
- **Update writes the request as given.** An explicit `closedAt: null`, as the service's
  update test sends, clears the stored close time (`Reservations.ReopenWithNullClearsCloseTime`).
- **Cancel has no implementation.** Cancellation exists only in the service's test file;
  the service and its controller do not define it. `Reservations.Cancel` models what the
  tests assert: an OPEN booking becomes CANCELED with `updatedAt` stamped, and any other
  status is a bad request. The tests check only the exception class, so the message "Only
  open reservations can be canceled" is this model's own wording.
- **The client lookup is a stub.** The client service's `findOne` returns a string, so in
  the running code the "Client is not active" check can never fire. The engine is modelled
  against a client gateway that yields `{isActive}`, as the service's tests mock it.
- **Resource remove returns nothing.** Its test expects the updated record; the model
  follows the code.

## Model

| member | source | states |
|---|---|---|
| `Tables.First` | src/clients/clients.service.ts:34-38 | the lookup yields a matching row with no matching row of lower id, and finds nothing exactly when no row matches |
| `Pagination.TotalPages` | src/spaces/spaces.service.ts:87 | `ceil(total/limit)` is the least page count whose pages hold every row; zero exactly when there are no rows |
| `Pagination.Window` | src/spaces/spaces.service.ts:64-67 | a page holds at most `limit` rows, namely the rows from `(page-1)*limit` on, in order, and is empty past the end |
| `Pagination.Paginate` | src/resources/resources.service.ts:45-71 | page and limit default to 1 and 10, `total` counts every matching row, `data` is the page's window and `totalPages` covers `total` tightly |
| `Pagination.PagesArePrefix` | src/spaces/spaces.service.ts:63-89 | the first n pages concatenated are the first `n*limit` rows |
| `Pagination.PagesCoverAllRows` | src/spaces/spaces.service.ts:63-89 | walking pages 1 to `totalPages` returns every matching row exactly once, in order |
| `Pagination.RowIsOnItsPage` | src/resources/resources.service.ts:45-69 | row i appears on page `i/limit + 1`, which is within `totalPages`, at position `i % limit` |
| `Pagination.PagesBeyondAreEmpty` | src/resources/resources.service.ts:45-69 | any page past `totalPages` is empty |
| `ClientFormats.FormatCpfIsAccepted` | src/clients/clients.service.ts:21-23 | eleven digits laid out as `ddd.ddd.ddd-dd` pass the CPF check and yield the same digits back |
| `ClientFormats.AcceptedCpfIsFormatted` | src/clients/clients.service.ts:21-23 | every string the CPF check accepts is exactly eleven digits in that layout |
| `ClientFormats.RenderIsAccepted` | src/clients/clients.service.ts:30-32 | every phone written as optional `(`, two digits, optional `)`, optional space or dash, 4–5 digits, optional `-`, 4 digits is accepted |
| `ClientFormats.ParseSubscriber` | src/clients/clients.service.ts:30 | splits an accepted subscriber part into its leading digits, optional dash and last four digits, which rebuild it |
| `ClientFormats.ParseRendersBack` | src/clients/clients.service.ts:30-32 | every accepted phone is the writing of some well-formed phone shape |
| `ClientFormats.ClientPhoneGrammar` | src/clients/clients.service.ts:30-32 | the hand-written matcher accepts exactly the strings the phone pattern's grammar describes |
| `ClientFormats.RenderDigitCount` | src/clients/clients.service.ts:30 | a phone written from a shape has two area digits plus the subscriber's 8 or 9 digits |
| `ClientFormats.AcceptedPhoneDigitCount` | src/clients/clients.service.ts:30-32 | every accepted client phone has 10 or 11 digits |
| `UserFormats.CheckPassword` | src/users/dto/create-user.dto.ts:33 | one left-to-right scan accepts exactly the passwords of 8 or more ASCII letters and digits with at least one letter and one digit |
| `UserFormats.SingleClassPasswordRefused` | src/users/dto/create-user.dto.ts:33 | a password of letters only, or of digits only, is refused at any length |
| `UserFormats.UserPhoneGrammar` | src/users/dto/create-user.dto.ts:45 | a user phone is accepted exactly when it is 10 to 20 characters from digits, whitespace, `-`, `(`, `)`, optionally after one `+` |
| `UserFormats.DocumentedExamplesAccepted` | src/users/dto/create-user.dto.ts:27-48 | the documented examples `Password987` and `+55 11 97524-6794` are accepted |
| `Spaces.Create` | src/spaces/spaces.service.ts:16-37 | a taken name is a conflict, reported before a capacity below 1; otherwise exactly the new active space is added under a fresh id |
| `Spaces.Matching` | src/spaces/spaces.service.ts:48-61 | the listing holds exactly the stored rows the truthy filters accept, with their ids |
| `Spaces.FindAll` | src/spaces/spaces.service.ts:39-90 | the response is the requested page of the matching rows, and every row on it is stored and passes the filters |
| `Spaces.FindAllFilters` | src/spaces/spaces.service.ts:50-61 | status `active` keeps only active rows and `inactive` only inactive ones, capacity is a lower bound, and with no truthy filter every row is listed |
| `Spaces.FindOne` | src/spaces/spaces.service.ts:92-98 | a stored id yields its row; any other id is "Space not found" |
| `Spaces.UpdateAsWritten` | src/spaces/spaces.service.ts:100-126 | the update the service runs: a negative capacity is refused, then a missing id is "Space not found", then a truthy name held by another id is "Name already in use", then a write whose name another row holds is refused by the unique index; a supplied capacity of 0 passes, and a success writes the supplied fields stamped with `now` |
| `Spaces.Update` | src/spaces/spaces.service.ts:100-126 | the corrected update of the Findings table: any capacity below 1 is refused before the lookup, then a missing id, then a truthy name held by another id is "Name already in use", then the unique index's refusal; a success writes the supplied fields stamped with `now` and nothing else |
| `Spaces.UpdatesDifferOnlyAtZero` | src/spaces/spaces.service.ts:101-103 | the service's update and the corrected one agree on every request except a capacity of 0, which the corrected one refuses and the service handles like a request without a capacity, storing 0 |
| `Spaces.UpdateChangesOnlySuppliedFields` | src/spaces/spaces.service.ts:119-125 | fields left out of the update keep their values, supplied ones are stored, and `updatedAt` is stamped |
| `Spaces.OwnNameNeverClashes` | src/spaces/spaces.service.ts:109-117 | with unique names, resubmitting a space's own name is never a clash |
| `Spaces.ZeroCapacityUpdate` | src/spaces/spaces.service.ts:101-103 | on a concrete store, the as-written update stores capacity 0 and breaks "capacities are positive"; the intended update refuses it |
| `Spaces.Remove` | src/spaces/spaces.service.ts:128-142 | a missing id is "Space not found"; otherwise the row stays, marked inactive and stamped, and nothing else changes |
| `Spaces.WritesKeepNamesUnique` | src/spaces/spaces.service.ts:16-142 | create, remove, and both the service's update and the corrected one keep space names unique, for every request, an empty name included |
| `Spaces.EmptyNameMeetsIndex` | src/spaces/spaces.service.ts:109-125 | an empty name skips the name check, and renaming to an empty name another space holds is refused by the unique index at the write, in both updates |
| `Spaces.WritesKeepCapacitiesPositive` | src/spaces/spaces.service.ts:23-126 | with the intended capacity guard, create, update and remove keep every capacity at least 1 |
| `Resources.Create` | src/resources/resources.service.ts:17-30 | a registered name is refused; otherwise the request is stored as given under a fresh id, with the status as supplied or the column default when left out |
| `Resources.Matching` | src/resources/resources.service.ts:35-43 | the listing holds exactly the stored rows the name and status filters accept |
| `Resources.FindAll` | src/resources/resources.service.ts:32-72 | the response is the requested page of the matching rows, and every row on it is stored and passes the filters |
| `Resources.StatusFilterOnlyForZeroOrOne` | src/resources/resources.service.ts:41-43 | status 0 or 1 keeps exactly that status; any other status and no name list every row |
| `Resources.FindOne` | src/resources/resources.service.ts:74-84 | a stored id yields its row; any other id is NotFound "Resource not found" |
| `Resources.Update` | src/resources/resources.service.ts:86-109 | a missing id is NotFound, a truthy name held by another id is refused, and a success writes the supplied fields with no timestamp |
| `Resources.WriteBackSucceeds` | src/resources/resources.service.ts:95-103 | with unique names, writing a stored resource back with a changed field but its own name always succeeds and stores exactly that record |
| `Resources.Remove` | src/resources/resources.service.ts:111-124 | a missing id is NotFound; otherwise only `isActive` changes, to disabled |
| `Resources.WritesKeepNamesUnique` | src/resources/resources.service.ts:17-124 | create, update and remove keep resource names unique |
| `Clients.Existing` | src/clients/clients.service.ts:34-38 | the duplicate lookup finds a client sharing the CPF or the email, and finds none exactly when no client shares either |
| `Clients.Create` | src/clients/clients.service.ts:14-76 | email, CPF, birth date and phone are checked in that order. A valid request is refused with "CPF or Email already existing" exactly when the lookup finds an active client. An inactive match is rewritten in place, active, keeping its creation time; the request fails with "Error reactivating client." exactly when another client holds one of its keys. With no match, a new active client is inserted. No success leaves another row holding the CPF or the email |
| `Clients.InsertNeverClashes` | src/clients/clients.service.ts:60-75 | the insert branch runs only when no client shares a key, so "Cpf or email is already in use." is never produced |
| `Clients.CreateSucceedsIff` | src/clients/clients.service.ts:34-58 | a valid request succeeds exactly when every client sharing its CPF or email is the one the lookup found, and that one is inactive |
| `Clients.CreateKeepsKeysUnique` | src/clients/clients.service.ts:34-75 | registration keeps CPFs and emails unique, and the stored client is then the only holder of both |
| `Clients.SampleFieldsValid` | src/clients/clients.service.ts:21-32 | a sample CPF and phone pass their checks |
| `Clients.ReactivationClashIsServerError` | src/clients/clients.service.ts:45-57 | an inactive match whose new email another client holds makes the reactivation fail as "Error reactivating client." |
| `Users.Create` | src/users/users.service.ts:11-39 | a taken email is refused before a taken phone. Otherwise the user is stored with `hash(password)` and status defaulting to 1, and the response is the stored user without its password |
| `Users.Update` | src/users/users.service.ts:49-90 | status 0 is refused first, then any holder of the email ("Email already registered"), then any holder of the phone ("Cellphone already registered"), then a missing id; a success stores the new email, phone and hashed password and keeps name and status when left out |
| `Users.OwnEmailRefused` | src/users/users.service.ts:58-72 | resubmitting the user's own email is refused, so a successful update changes both email and phone |
| `Users.Remove` | src/users/users.service.ts:92-109 | a missing id is NotFound; otherwise only the status changes, to 0 |
| `Users.CreateKeepsEmailsAndPhonesUnique` | src/users/users.service.ts:11-39 | registration keeps emails unique, and phones too although the store does not enforce it |
| `Users.UpdateKeepsEmailsAndPhonesUnique` | src/users/users.service.ts:49-90 | an update keeps emails and phones unique |
| `Users.RemoveKeepsEmailsAndPhonesUnique` | src/users/users.service.ts:92-109 | a soft delete keeps emails and phones unique |
| `Reservations.OverlapMeansSharedInstant` | src/reservations/reservations.service.ts:28-44 | for non-empty intervals the overlap query holds exactly when the two half-open intervals on the same space share an instant; touching intervals never overlap |
| `Reservations.FindClient` | src/reservations/reservations.service.ts:26 | the client gateway yields the stored client or a NotFound error |
| `Reservations.TakeUnit` | src/reservations/reservations.service.ts:70-76 | a resource at quantity 0 is not written; otherwise the whole record is written back with quantity one less, and only a bad request can fail it |
| `Reservations.WrapCreate` | src/reservations/reservations.service.ts:115-121 | a bad request passes through unchanged; any other error becomes a bad request "Error creating reservation" |
| `Reservations.Create` | src/reservations/reservations.service.ts:20-122 | missing entities give the generic error. Then, in order: dates, inactive space, resource and client, negative quantity, overlap. A success inserts the request's fields, status included, with one line, and takes one unit of a stocked resource |
| `Reservations.CreateSucceedsIff` | src/reservations/reservations.service.ts:46-88 | with unique resource names, a booking succeeds exactly when every admission check passes |
| `Reservations.CreateKeepsSchedulesDisjoint` | src/reservations/reservations.service.ts:28-88 | a booking keeps every space's reservations pairwise non-overlapping |
| `Reservations.AnyStatusBlocks` | src/reservations/reservations.service.ts:28-68 | a stored reservation sharing an instant with the request blocks it whatever its status, canceled and closed included |
| `Reservations.WrapUpdate` | src/reservations/reservations.service.ts:187-192 | a bad request passes through; any other error becomes a bad request whose message is the prefix followed by the original message |
| `Reservations.Update` | src/reservations/reservations.service.ts:125-193 | a missing id is reported with the prefix. Then, in order: CANCELED refused, APPROVED only from OPEN, the date check (two instants in the wrong order, or two nulls), CLOSED only from APPROVED. Past the checks, a single null date fails in the store, unwrapped. It succeeds exactly when the move is `Allowed` and no date is inverted or null; a success writes the supplied fields, plus `closedAt = now` on a close; otherwise an explicit `closedAt: null` clears the close time |
| `Reservations.NullDatesRefused` | src/reservations/reservations.service.ts:141-161 | two null dates are refused as inverted; one null date passes the check and the write is refused by the store, not wrapped by the error handler |
| `Reservations.UpdateFollowsStatusMachine` | src/reservations/reservations.service.ts:131-157 | with consistent dates an update succeeds exactly when the transition table `Allowed` permits the move and no date is null, stores the requested status, and stamps a close |
| `Reservations.UpdateWritesCloseTime` | src/reservations/reservations.service.ts:145-161 | a close stamps `now` whatever the request says; otherwise a left-out `closedAt` keeps the stored one, `null` clears it and an instant is stored |
| `Reservations.ReopenWithNullClearsCloseTime` | src/reservations/reservations.service.ts:159-161 | reopening a closed booking with `closedAt: null`, as the service's update test sends, clears its close time; leaving it out keeps it |
| `Reservations.UpdateNeverCancels` | src/reservations/reservations.service.ts:131-133 | a reservation an update leaves canceled was canceled before |
| `Reservations.AnyStatusReopens` | src/reservations/reservations.service.ts:131-161 | a request for OPEN succeeds from every status, closed and canceled included |
| `Reservations.UpdateCanBreakSchedule` | src/reservations/reservations.service.ts:141-161 | moving one end alone can invert a reservation's interval or make it overlap a neighbour |
| `Reservations.Cancel` | src/reservations/reservations.service.spec.ts:288-325 | a missing id is NotFound; only an open reservation is canceled, stamped with `updatedAt = now`, and any other status is refused |
| `Reservations.CancelKeepsSchedulesAndIsNotRepeatable` | src/reservations/reservations.service.spec.ts:288-325 | cancellation keeps schedules disjoint, and a second cancellation is refused |
| `Reservations.BookingLifecycle` | src/reservations/reservations.service.ts:20-193 | booking [10,12) takes the resource from 5 to 4; an overlapping [11,13) is refused; approve then close stamp the close; cancel is then refused |

## Left out

- Persistence plumbing (Prisma, transactions, `include`/`select` response shaping), NestJS
  modules, controllers, Swagger and `main.ts`: these carry no logic.
- The check-then-act races in the overlap check and the inventory decrement. The model is
  sequential, and each operation is one atomic step.
- Decrement persisting after a failed insert: in the code, the inventory write persists
  even if the reservation insert fails. The model's insert cannot fail.
- Transient store failures (connection loss and the like): the model's store never fails
  spontaneously. So "Error creating client." and the generic reservation errors for store
  faults are not produced.
- Un-awaited reservation writes: the insert in create
  (src/reservations/reservations.service.ts:78) and the two writes in update (:150, :159)
  are returned without `await`. A store error they raise therefore bypasses the error
  handlers and reaches the caller unwrapped. The model's insert cannot fail; its update
  write fails only on a null date, and returns that error unwrapped (`Reservations.Write`).
  `Reservations.WrapCreate` and `Reservations.WrapUpdate` only ever see errors raised
  before the write: the lookups, the checks and, in create, the awaited resource update.
- `validator.isEmail`, date parsing and the clock: foreign or environment-dependent. They
  are a parameter, an optional integer (None for an unparseable date), and `now`.
- bcrypt hashing: an uninterpreted `hash` parameter.
- The clients service's `findAll`, `findOne`, `update` and `remove`: stubs that return a
  fixed text and never touch the store.
- The users service's `findAll` and `findOne`: stubs of the same kind.
- Reservations `findAll` and `findOne`: the controller calls them, but the service does
  not define them.
- The client store's unique indexes: the database schema is not part of this model. A
  unique index on the client's CPF and on its email is assumed, since the service maps a
  unique violation on insert.
- The other columns: the schema is not part of this model. A unique index on the space
  name is assumed, since the service looks spaces up by name with `findUnique`; the
  reservation's start and end dates are assumed to be required columns. The store's error
  messages are this model's own wording.
- Reservations.FindClient: refusing a missing client is an assumption about the client
  lookup the engine is modelled against. The code's `findOne`
  (src/clients/clients.service.ts:82-84) is a stub that returns a string for every id, so
  the code refuses no client, and create goes on past the lookups.
- Resources.WritesKeepNamesUnique: relies on a non-empty name in an update, which the
  request validation inherited by `UpdateResourceDto` demands; the resource update does not
  model the unique index's refusal.
- Users.Update: takes email, phone and password as always supplied. When one is left out,
  the outcome depends on how Prisma and bcrypt treat an `undefined` argument, which is not
  modelled.
- Users.Update: the unawaited `findUniqueOrThrow` is not modelled. A missing id surfaces at
  the write, as Prisma's record-not-found error.
- Spaces.FindAll: the `page` and `limit` query parameters are assumed validated as positive
  integers. Coercion of query strings to numbers is not modelled.
- Resources.FindAll: the `page` and `limit` query parameters are assumed validated as
  positive integers. Coercion of query strings to numbers is not modelled.
- Reservations.Update: an explicit `null` is modelled only for the reservation's start and
  end dates and `closedAt`. `@IsOptional()` also lets a `null` status through, and the
  service would then write it as given; the model's status is left out or a value. The
  same holds for the fields of the space, resource and user update requests, which are
  left out or a value.
- Spaces.Matching / Resources.Matching: the name and description filters are modelled as
  case-sensitive substring matches (`Text.Contains`). Prisma's `contains` follows the
  database's collation, which the schema decides, and the schema is not part of this model.
- Reservation dates are integers. The code compares the raw date strings in its date check
  and parsed `Date`s in the overlap query; the model uses one order for both.

## Findings

| source | as written | input that shows it | evidently intended | confidence | as-written member | corrected member |
|---|---|---|---|---|---|---|
| src/spaces/spaces.service.ts:101-103 | the update guard is `capacity && capacity < 1`, so a supplied capacity of 0 is falsy and skips the check | updating an existing space with `{ capacity: 0 }` stores capacity 0 | every supplied capacity below 1 is refused, as creation refuses it and the service's test for capacity 0 (src/spaces/spaces.service.spec.ts:188-200) expects | high; not executed. For HTTP callers `@Min(1)` on `UpdateSpaceDto` (src/spaces/dto/update-space.dto.ts:14-17) under the global `ValidationPipe` (src/main.ts:9-17) rejects the request first; the bug stands at the service level, which the service's test exercises | `Spaces.UpdateAsWritten`, shown by `Spaces.ZeroCapacityUpdate` | `Spaces.Update`, with `Spaces.WritesKeepCapacitiesPositive` |

=== FILE: client_formats.dfy ===
/** The two patterns a client must match on creation: the CPF format
    `^\d{3}\.\d{3}\.\d{3}\-\d{2}$` and the phone format
    `^\(?\d{2}\)?[\s\-]?\d{4,5}\-?\d{4}$`, written out by hand. */
module ClientFormats {
  import opened Results
  import opened Text

  // ---------------------------------------------------------------- CPF

  /** `ddd.ddd.ddd-dd`. */
  predicate IsCpf(s: string) {
    && |s| == 14
    && AllDigits(s[0..3]) && s[3] == '.'
    && AllDigits(s[4..7]) && s[7] == '.'
    && AllDigits(s[8..11]) && s[11] == '-'
    && AllDigits(s[12..14])
  }

  /** Writes eleven digits in the CPF layout. */
  function FormatCpf(d: string): string
    requires |d| == 11
  {
    d[0..3] + "." + d[3..6] + "." + d[6..9] + "-" + d[9..11]
  }

  /** The eleven digits of a CPF-shaped string, punctuation dropped. */
  function CpfDigits(s: string): string
    requires |s| == 14
  {
    s[0..3] + s[4..7] + s[8..11] + s[12..14]
  }

  /** Formatting eleven digits gives an accepted CPF that gives the same digits back. */
  lemma FormatCpfIsAccepted(d: string)
    requires |d| == 11 && AllDigits(d)
    ensures IsCpf(FormatCpf(d))
    ensures CpfDigits(FormatCpf(d)) == d
  {
    var s := FormatCpf(d);
    assert s[0..3] == d[0..3];
    assert s[4..7] == d[3..6];
    assert s[8..11] == d[6..9];
    assert s[12..14] == d[9..11];
    assert d == d[0..3] + d[3..6] + d[6..9] + d[9..11];
  }

  /** Every accepted CPF is the formatting of its eleven digits: the pattern accepts
      exactly the strings `FormatCpf` produces. */
  lemma AcceptedCpfIsFormatted(s: string)
    requires IsCpf(s)
    ensures |CpfDigits(s)| == 11 && AllDigits(CpfDigits(s))
    ensures FormatCpf(CpfDigits(s)) == s
  {
    var d := CpfDigits(s);
    assert d[0..3] == s[0..3];
    assert d[3..6] == s[4..7];
    assert d[6..9] == s[8..11];
    assert d[9..11] == s[12..14];
    assert forall i :: 0 <= i < 11 ==> IsDigit(d[i]) by {
      forall i | 0 <= i < 11
        ensures IsDigit(d[i])
      {
        if i < 3 { assert d[i] == s[0..3][i]; }
        else if i < 6 { assert d[i] == s[4..7][i - 3]; }
        else if i < 9 { assert d[i] == s[8..11][i - 6]; }
        else { assert d[i] == s[12..14][i - 9]; }
      }
    }
    assert s == s[0..3] + [s[3]] + s[4..7] + [s[7]] + s[8..11] + [s[11]] + s[12..14];
  }

  // -------------------------------------------------------------- phone

  /** `[\s\-]`: the optional separator after the area code. */
  predicate IsSeparator(c: char) {
    IsJsWhitespace(c) || c == '-'
  }

  /** `\d{4,5}\-?\d{4}$`: the subscriber number. */
  predicate IsSubscriber(d: string) {
    || (|d| == 8 && AllDigits(d))
    || (|d| == 9 && AllDigits(d))
    || (|d| == 9 && AllDigits(d[..4]) && d[4] == '-' && AllDigits(d[5..]))
    || (|d| == 10 && AllDigits(d[..5]) && d[5] == '-' && AllDigits(d[6..]))
  }

  /** Drops `c` from the front of `s` when it is there (an optional literal). */
  function SkipOpt(s: string, c: char): string {
    if |s| > 0 && s[0] == c then s[1..] else s
  }

  /** Drops a separator from the front of `s` when one is there. */
  function SkipSeparator(s: string): string {
    if |s| > 0 && IsSeparator(s[0]) then s[1..] else s
  }

  /** The client phone pattern. Each optional literal is followed by a digit in every
      match, so consuming it whenever it is present is the only way to match. */
  predicate IsClientPhone(s: string) {
    var a := SkipOpt(s, '(');
    && |a| >= 2 && IsDigit(a[0]) && IsDigit(a[1])
    && IsSubscriber(SkipSeparator(SkipOpt(a[2..], ')')))
  }

  /** One way of writing a phone number the pattern describes. */
  datatype PhoneShape = PhoneShape(
    open: bool, area: string, close: bool, sep: Option<char>, middle: string, dash: bool, last: string)

  predicate WellFormed(p: PhoneShape) {
    && |p.area| == 2 && AllDigits(p.area)
    && (p.sep.Some? ==> IsSeparator(p.sep.value))
    && 4 <= |p.middle| <= 5 && AllDigits(p.middle)
    && |p.last| == 4 && AllDigits(p.last)
  }

  function Lit(present: bool, c: char): string {
    if present then [c] else []
  }

  function SepText(sep: Option<char>): string {
    if sep.Some? then [sep.value] else []
  }

  /** The subscriber part: `middle`, an optional dash, `last`. */
  function Subscriber(p: PhoneShape): string {
    p.middle + (Lit(p.dash, '-') + p.last)
  }

  /** The text after the area code. */
  function AfterArea(p: PhoneShape): string {
    Lit(p.close, ')') + (SepText(p.sep) + Subscriber(p))
  }

  function Render(p: PhoneShape): string {
    Lit(p.open, '(') + (p.area + AfterArea(p))
  }

  /** An optional literal followed by text that does not start with it is skipped exactly. */
  lemma SkipLit(present: bool, c: char, rest: string)
    requires |rest| > 0 && rest[0] != c
    ensures SkipOpt(Lit(present, c) + rest, c) == rest
  {
    if present {
      assert (Lit(present, c) + rest)[1..] == rest;
    } else {
      assert Lit(present, c) + rest == rest;
    }
  }

  lemma SkipSep(sep: Option<char>, rest: string)
    requires sep.Some? ==> IsSeparator(sep.value)
    requires |rest| > 0 && IsDigit(rest[0])
    ensures SkipSeparator(SepText(sep) + rest) == rest
  {
    if sep.Some? {
      assert (SepText(sep) + rest)[1..] == rest;
    } else {
      assert SepText(sep) + rest == rest;
    }
  }

  lemma SubscriberRendered(p: PhoneShape)
    requires WellFormed(p)
    ensures IsSubscriber(Subscriber(p))
  {
    var d := Subscriber(p);
    if p.dash {
      assert d[..|p.middle|] == p.middle;
      assert d[|p.middle| + 1..] == p.last;
    } else {
      assert forall i :: 0 <= i < |d| ==> IsDigit(d[i]) by {
        forall i | 0 <= i < |d|
          ensures IsDigit(d[i])
        {
          if i < |p.middle| { assert d[i] == p.middle[i]; } else { assert d[i] == p.last[i - |p.middle|]; }
        }
      }
    }
  }

  /** Every well-formed shape renders to an accepted phone. */
  lemma RenderIsAccepted(p: PhoneShape)
    requires WellFormed(p)
    ensures IsClientPhone(Render(p))
  {
    var s := Render(p);
    var tail := Subscriber(p);
    assert tail[0] == p.middle[0];
    var x2 := SepText(p.sep) + tail;
    assert x2[0] != ')';
    var x1 := AfterArea(p);
    SkipLit(p.open, '(', p.area + x1);
    var a := SkipOpt(s, '(');
    assert a[2..] == x1;
    SkipLit(p.close, ')', x2);
    SkipSep(p.sep, tail);
    SubscriberRendered(p);
  }

  /** Splits a subscriber number into its leading digits, dash and last four digits. */
  function ParseSubscriber(d: string): (r: (string, bool, string))
    requires IsSubscriber(d)
    ensures 4 <= |r.0| <= 5 && AllDigits(r.0) && |r.2| == 4 && AllDigits(r.2)
    ensures r.0 + (Lit(r.1, '-') + r.2) == d
  {
    if |d| == 9 && d[4] == '-' then
      assert d == d[..4] + (['-'] + d[5..]);
      (d[..4], true, d[5..])
    else if |d| == 10 then
      assert d == d[..5] + (['-'] + d[6..]);
      (d[..5], true, d[6..])
    else
      var n := |d| - 4;
      assert d == d[..n] + d[n..];
      (d[..n], false, d[n..])
  }

  function SepOf(c: string): Option<char> {
    if |c| > 0 && IsSeparator(c[0]) then Some(c[0]) else None
  }

  /** Reads an accepted phone back into its shape. */
  function Parse(s: string): PhoneShape
    requires IsClientPhone(s)
  {
    var a := SkipOpt(s, '(');
    var b := a[2..];
    var c := SkipOpt(b, ')');
    var sub := ParseSubscriber(SkipSeparator(c));
    PhoneShape(|s| > 0 && s[0] == '(', a[..2], |b| > 0 && b[0] == ')', SepOf(c), sub.0, sub.1, sub.2)
  }

  lemma TakeOpt(s: string, c: char)
    ensures s == Lit(|s| > 0 && s[0] == c, c) + SkipOpt(s, c)
  {
    if |s| > 0 && s[0] == c {
      assert s == [c] + s[1..];
    }
  }

  lemma TakeSep(c: string)
    ensures c == SepText(SepOf(c)) + SkipSeparator(c)
  {
    if |c| > 0 && IsSeparator(c[0]) {
      assert c == [c[0]] + c[1..];
    }
  }

  /** The parsed shape renders back everything after the area code. */
  lemma ParseAfterArea(s: string)
    requires IsClientPhone(s)
    ensures AfterArea(Parse(s)) == SkipOpt(s, '(')[2..]
  {
    var p := Parse(s);
    var b := SkipOpt(s, '(')[2..];
    var c := SkipOpt(b, ')');
    assert Subscriber(p) == SkipSeparator(c);
    TakeSep(c);
    assert SepText(p.sep) + Subscriber(p) == c;
    TakeOpt(b, ')');
  }

  lemma ParseWellFormed(s: string)
    requires IsClientPhone(s)
    ensures WellFormed(Parse(s))
  {
    var p := Parse(s);
    var a := SkipOpt(s, '(');
    assert p.area == a[..2];
    assert AllDigits(p.area) by {
      assert p.area[0] == a[0] && p.area[1] == a[1];
    }
  }

  /** Every accepted phone is the rendering of the shape it parses to. */
  lemma ParseRendersBack(s: string)
    requires IsClientPhone(s)
    ensures WellFormed(Parse(s))
    ensures Render(Parse(s)) == s
  {
    ParseWellFormed(s);
    var p := Parse(s);
    var a := SkipOpt(s, '(');
    assert p.area == a[..2] && p.open == (|s| > 0 && s[0] == '(');
    ParseAfterArea(s);
    assert p.area + AfterArea(p) == a by {
      assert a == a[..2] + a[2..];
    }
    TakeOpt(s, '(');
  }

  /** The hand-written matcher accepts exactly the renderings of well-formed shapes. */
  lemma ClientPhoneGrammar(s: string)
    ensures IsClientPhone(s) <==> exists p :: WellFormed(p) && Render(p) == s
  {
    if IsClientPhone(s) {
      ParseRendersBack(s);
    }
    forall p | WellFormed(p) && Render(p) == s
      ensures IsClientPhone(s)
    {
      RenderIsAccepted(p);
    }
  }

  lemma NoDigitsInLit(present: bool, c: char)
    requires !IsDigit(c)
    ensures DigitCount(Lit(present, c)) == 0
  {
    if present {
      assert Lit(present, c)[1..] == [];
    }
  }

  lemma SubscriberDigitCount(p: PhoneShape)
    requires WellFormed(p)
    ensures DigitCount(Subscriber(p)) == |p.middle| + 4
  {
    NoDigitsInLit(p.dash, '-');
    DigitCountAllDigits(p.middle);
    DigitCountAllDigits(p.last);
    DigitCountAppend(Lit(p.dash, '-'), p.last);
    DigitCountAppend(p.middle, Lit(p.dash, '-') + p.last);
  }

  lemma AfterAreaDigitCount(p: PhoneShape)
    requires WellFormed(p)
    ensures DigitCount(AfterArea(p)) == |p.middle| + 4
  {
    SubscriberDigitCount(p);
    NoDigitsInLit(p.close, ')');
    assert DigitCount(SepText(p.sep)) == 0 by {
      if p.sep.Some? {
        NoDigitsInLit(true, p.sep.value);
        assert SepText(p.sep) == Lit(true, p.sep.value);
      }
    }
    DigitCountAppend(SepText(p.sep), Subscriber(p));
    DigitCountAppend(Lit(p.close, ')'), SepText(p.sep) + Subscriber(p));
  }

  lemma RenderDigitCount(p: PhoneShape)
    requires WellFormed(p)
    ensures DigitCount(Render(p)) == |p.middle| + 6
  {
    AfterAreaDigitCount(p);
    NoDigitsInLit(p.open, '(');
    DigitCountAllDigits(p.area);
    DigitCountAppend(p.area, AfterArea(p));
    DigitCountAppend(Lit(p.open, '('), p.area + AfterArea(p));
  }

  /** An accepted phone holds 10 or 11 digits: 2 in the area code, 4 or 5, then 4. */
  lemma AcceptedPhoneDigitCount(s: string)
    requires IsClientPhone(s)
    ensures DigitCount(s) == 10 || DigitCount(s) == 11
  {
    ParseRendersBack(s);
    RenderDigitCount(Parse(s));
  }
}

=== FILE: clients.dfy ===
/** Client registration: field validation, lookup of an earlier client holding the same
    CPF or email, reactivation of an inactive one, and insertion of a new one. The store
    keeps a unique index on the CPF and one on the email. */
module Clients {
  import opened Results
  import opened Tables
  import opened Text
  import opened ClientFormats

  datatype Client = Client(
    name: string, cpf: string, email: string, phone: string, dateOfBirth: int,
    isActive: int, createdAt: int, updatedAt: Option<int>)

  /** A registration request. `dateOfBirth` is None when the submitted date does not parse. */
  datatype NewClient = NewClient(
    name: string, cpf: string, email: string, phone: string, dateOfBirth: Option<int>)

  const EmailInvalid := "Email is invalid."
  const CpfInvalid := "Cpf is invalid."
  const BirthDateInvalid := "Date Of Birth is invalid."
  const PhoneInvalid := "Phone is invalid."
  const AlreadyExisting := "CPF or Email already existing"
  const ReactivationFailed := "Error reactivating client."
  const AlreadyInUse := "Cpf or email is already in use."

  /** The `OR: [{ cpf }, { email }]` condition of the duplicate lookup. */
  predicate SharesKey(c: Client, cpf: string, email: string) {
    c.cpf == cpf || c.email == email
  }

  /** A row other than `id` holds the CPF or the email of `c`: writing `c` under `id` (or
      under a fresh id) would violate a unique index. */
  predicate Clashes(t: Table<Client>, id: int, c: Client) {
    exists k :: k in t.rows && k != id && SharesKey(t.rows[k], c.cpf, c.email)
  }

  /** The unique indexes on CPF and on email. */
  ghost predicate UniqueKeys(t: Table<Client>) {
    forall i, j :: i in t.rows && j in t.rows && i != j ==>
      t.rows[i].cpf != t.rows[j].cpf && t.rows[i].email != t.rows[j].email
  }

  /** The request passes the four field checks. */
  predicate ValidRequest(dto: NewClient, now: int, isEmail: string -> bool) {
    && isEmail(dto.email)
    && IsCpf(dto.cpf)
    && dto.dateOfBirth.Some? && dto.dateOfBirth.value <= now
    && IsClientPhone(dto.phone)
  }

  /** The client a request stores, keeping `createdAt` and setting `updatedAt` as given. */
  function FromRequest(dto: NewClient, createdAt: int, updatedAt: Option<int>): Client
    requires dto.dateOfBirth.Some?
  {
    Client(dto.name, dto.cpf, dto.email, dto.phone, dto.dateOfBirth.value, 1, createdAt, updatedAt)
  }

  /** The earlier client the lookup finds: the lowest id sharing the CPF or the email. */
  function Existing(t: Table<Client>, dto: NewClient): (m: Option<int>)
    ensures m.Some? ==> m.value in t.rows && SharesKey(t.rows[m.value], dto.cpf, dto.email)
    ensures Valid(t) ==> (m.None? <==> forall id :: id in t.rows ==> !SharesKey(t.rows[id], dto.cpf, dto.email))
  {
    First(t, (c: Client) => SharesKey(c, dto.cpf, dto.email))
  }

  /** Registers a client. `now` is the clock and `isEmail` the email validator. */
  function Create(t: Table<Client>, dto: NewClient, now: int, isEmail: string -> bool): (r: Result<Saved<Client>>)
    // the field checks, in order; the first failure is reported
    ensures !isEmail(dto.email) ==> r == Failure(Error(BadRequest, EmailInvalid))
    ensures isEmail(dto.email) && !IsCpf(dto.cpf) ==> r == Failure(Error(BadRequest, CpfInvalid))
    ensures isEmail(dto.email) && IsCpf(dto.cpf) && (dto.dateOfBirth.None? || dto.dateOfBirth.value > now) ==>
              r == Failure(Error(BadRequest, BirthDateInvalid))
    ensures (isEmail(dto.email) && IsCpf(dto.cpf) && dto.dateOfBirth.Some? && dto.dateOfBirth.value <= now
             && !IsClientPhone(dto.phone)) ==> r == Failure(Error(BadRequest, PhoneInvalid))
    // an active earlier client blocks the request
    ensures r == Failure(Error(BadRequest, AlreadyExisting)) <==>
              ValidRequest(dto, now, isEmail) && Existing(t, dto).Some? && t.rows[Existing(t, dto).value].isActive == 1
    // an inactive earlier client is reactivated, unless a second client holds the other key
    ensures r == Failure(Error(InternalServerError, ReactivationFailed)) <==>
              && ValidRequest(dto, now, isEmail) && Existing(t, dto).Some?
              && t.rows[Existing(t, dto).value].isActive != 1
              && Clashes(t, Existing(t, dto).value, FromRequest(dto, t.rows[Existing(t, dto).value].createdAt, Some(now)))
    // every success stores the request's fields, active, with no other row holding its keys
    ensures r.Success? ==> ValidRequest(dto, now, isEmail)
    ensures r.Success? ==> r.value.row.isActive == 1 && r.value.row.name == dto.name && r.value.row.cpf == dto.cpf
                           && r.value.row.email == dto.email && r.value.row.phone == dto.phone
                           && r.value.row.dateOfBirth == dto.dateOfBirth.value
    ensures r.Success? ==> !Clashes(t, r.value.id, r.value.row)
    // reactivation rewrites the earlier row in place
    ensures r.Success? && Valid(t) && r.value.id in t.rows ==>
              && r.value.table == Put(t, r.value.id, r.value.row)
              && t.rows[r.value.id].isActive != 1
              && r.value.row.createdAt == t.rows[r.value.id].createdAt && r.value.row.updatedAt == Some(now)
    // otherwise a new row is inserted
    ensures r.Success? && r.value.id !in t.rows ==>
              && r.value.table.rows == t.rows[r.value.id := r.value.row]
              && r.value.row.createdAt == now && r.value.row.updatedAt.None?
    ensures r.Success? && Valid(t) ==> Valid(r.value.table)
  {
    if !isEmail(dto.email) then Failure(Error(BadRequest, EmailInvalid))
    else if !IsCpf(dto.cpf) then Failure(Error(BadRequest, CpfInvalid))
    else if dto.dateOfBirth.None? || dto.dateOfBirth.value > now then Failure(Error(BadRequest, BirthDateInvalid))
    else if !IsClientPhone(dto.phone) then Failure(Error(BadRequest, PhoneInvalid))
    else match Existing(t, dto)
      case Some(id) =>
        var prev := t.rows[id];
        if prev.isActive == 1 then Failure(Error(BadRequest, AlreadyExisting))
        else
          var row := FromRequest(dto, prev.createdAt, Some(now));
          if Clashes(t, id, row) then Failure(Error(InternalServerError, ReactivationFailed))
          else Success(Saved(Put(t, id, row), id, row))
      case None =>
        var row := FromRequest(dto, now, None);
        var (t', id) := Insert(t, row);
        // the insert violates a unique index only when another row holds a key
        if Clashes(t, id, row) then Failure(Error(BadRequest, AlreadyInUse))
        else Success(Saved(t', id, row))
  }

  /** With no earlier client sharing a key, the insert cannot violate a unique index, so
      the unique-violation message is never produced. */
  lemma InsertNeverClashes(t: Table<Client>, dto: NewClient, now: int, isEmail: string -> bool)
    requires Valid(t)
    ensures Create(t, dto, now, isEmail) != Failure(Error(BadRequest, AlreadyInUse))
  {
    if ValidRequest(dto, now, isEmail) && Existing(t, dto).None? {
      var row := FromRequest(dto, now, None);
      assert !Clashes(t, t.nextId, row);
    }
  }

  /** A valid request succeeds exactly when every client sharing its CPF or email is the
      first such client, and that one is inactive; otherwise an active holder rejects it or
      the reactivation clashes with a second holder. */
  lemma CreateSucceedsIff(t: Table<Client>, dto: NewClient, now: int, isEmail: string -> bool)
    requires Valid(t) && ValidRequest(dto, now, isEmail)
    ensures Create(t, dto, now, isEmail).Success? <==>
              forall id :: id in t.rows && SharesKey(t.rows[id], dto.cpf, dto.email) ==>
                id == Existing(t, dto).value && t.rows[id].isActive != 1
  {
    var m := Existing(t, dto);
    if m.Some? {
      var row := FromRequest(dto, t.rows[m.value].createdAt, Some(now));
      if Clashes(t, m.value, row) {
        var k :| k in t.rows && k != m.value && SharesKey(t.rows[k], row.cpf, row.email);
        assert SharesKey(t.rows[k], dto.cpf, dto.email);
      }
    } else {
      InsertNeverClashes(t, dto, now, isEmail);
    }
  }

  /** Registration keeps CPFs and emails unique, and after a success the stored client is
      the only holder of the request's CPF and of its email. */
  lemma CreateKeepsKeysUnique(t: Table<Client>, dto: NewClient, now: int, isEmail: string -> bool)
    requires Valid(t) && UniqueKeys(t)
    ensures Create(t, dto, now, isEmail).Success? ==> UniqueKeys(Create(t, dto, now, isEmail).value.table)
    ensures Create(t, dto, now, isEmail).Success? ==>
              var s := Create(t, dto, now, isEmail).value;
              forall k :: k in s.table.rows && SharesKey(s.table.rows[k], dto.cpf, dto.email) ==> k == s.id
  {
    var r := Create(t, dto, now, isEmail);
    if r.Success? {
      var s := r.value;
      forall i, j | i in s.table.rows && j in s.table.rows && i != j
        ensures s.table.rows[i].cpf != s.table.rows[j].cpf && s.table.rows[i].email != s.table.rows[j].email
      {
        if i == s.id {
          assert !SharesKey(t.rows[j], s.row.cpf, s.row.email);
        } else if j == s.id {
          assert !SharesKey(t.rows[i], s.row.cpf, s.row.email);
        }
      }
    }
  }

  lemma SampleFieldsValid()
    ensures IsCpf("123.456.789-09")
    ensures IsClientPhone("11987654321")
  {
    var cpf := "123.456.789-09";
    assert AllDigits(cpf[0..3]) && AllDigits(cpf[4..7]) && AllDigits(cpf[8..11]) && AllDigits(cpf[12..14]);
    var phone := "11987654321";
    assert SkipOpt(phone, '(') == phone;
    assert phone[2..] == "987654321";
    assert SkipOpt(phone[2..], ')') == phone[2..];
    assert SkipSeparator(phone[2..]) == phone[2..];
    assert AllDigits(phone[2..]);
  }

  /** A concrete witness of the reactivation failure (the general condition is in
      `Create`'s contract): an inactive client found by CPF whose email a second, active
      client holds; the reactivation write violates the email index and is reported as a
      server error. */
  lemma ReactivationClashIsServerError()
    ensures
      var a := Client("Ana", "123.456.789-09", "ana@x.com", "11987654321", 0, 0, 0, None);
      var b := Client("Bia", "987.654.321-00", "bia@x.com", "11912345678", 0, 1, 0, None);
      var t := Table(map[1 := a, 2 := b], 3);
      var dto := NewClient("Ana", "123.456.789-09", "bia@x.com", "11987654321", Some(0));
      Create(t, dto, 10, (s: string) => true) == Failure(Error(InternalServerError, ReactivationFailed))
  {
    var a := Client("Ana", "123.456.789-09", "ana@x.com", "11987654321", 0, 0, 0, None);
    var b := Client("Bia", "987.654.321-00", "bia@x.com", "11912345678", 0, 1, 0, None);
    var t := Table(map[1 := a, 2 := b], 3);
    var dto := NewClient("Ana", "123.456.789-09", "bia@x.com", "11987654321", Some(0));
    SampleFieldsValid();
    assert t.rows[1] == a && SharesKey(a, dto.cpf, dto.email);
    assert Existing(t, dto) == Some(1);
    var row := FromRequest(dto, 0, Some(10));
    assert t.rows[2] == b && SharesKey(b, row.cpf, row.email);
    assert Clashes(t, 1, row);
  }
}

=== FILE: pagination.dfy ===
/** The offset pagination shared by the `findAll` listings: `page` and `limit`
    default to 1 and 10, the query skips `(page - 1) * limit` rows and takes
    `limit`, and the metadata reports `totalPages = ceil(total / limit)`. */
module Pagination {
  import opened Results

  const DefaultPage := 1
  const DefaultLimit := 10

  datatype Meta = Meta(total: nat, page: int, limit: int, totalPages: nat)

  datatype Page<T> = Page(data: seq<T>, meta: Meta)

  /** A page or limit query parameter, validated to be a positive integer when present. */
  predicate ValidParam(p: Option<int>) {
    p.None? || p.value >= 1
  }

  function Min(a: int, b: int): int {
    if a <= b then a else b
  }

  function Skip(page: int, limit: int): int {
    (page - 1) * limit
  }

  /** `Math.ceil(total / limit)`: the least number of pages of `limit` rows that hold `total` rows. */
  function TotalPages(total: nat, limit: int): (n: nat)
    requires limit >= 1
    ensures n * limit >= total
    ensures n == 0 || (n - 1) * limit < total
    ensures n == 0 <==> total == 0
  {
    var n := (total + limit - 1) / limit;
    assert n * limit + (total + limit - 1) % limit == total + limit - 1;
    n
  }

  /** The rows one page returns: at most `limit` rows starting at `Skip(page, limit)`. */
  function Window<T>(rows: seq<T>, page: int, limit: int): (w: seq<T>)
    requires page >= 1 && limit >= 1
    ensures |w| <= limit
    ensures forall i :: 0 <= i < |w| ==> Skip(page, limit) + i < |rows| && w[i] == rows[Skip(page, limit) + i]
    ensures Skip(page, limit) < |rows| ==> |w| == Min(limit, |rows| - Skip(page, limit))
    ensures Skip(page, limit) >= |rows| ==> w == []
  {
    assert Skip(page, limit) >= 0 by {
      assert page - 1 >= 0;
    }
    rows[Min(Skip(page, limit), |rows|)..Min(Skip(page, limit) + limit, |rows|)]
  }

  /** A page keeps every property that all of the rows have. */
  lemma WindowKeeps<T>(rows: seq<T>, page: int, limit: int, P: T -> bool)
    requires page >= 1 && limit >= 1
    requires forall i :: 0 <= i < |rows| ==> P(rows[i])
    ensures forall i :: 0 <= i < |Window(rows, page, limit)| ==> P(Window(rows, page, limit)[i])
  {
    var w := Window(rows, page, limit);
    forall i | 0 <= i < |w|
      ensures P(w[i])
    {
      assert w[i] == rows[Skip(page, limit) + i];
    }
  }

  /** A `findAll` response over the rows matching the filters. What the pages mean taken
      together is stated by `PagesArePrefix`, `PagesCoverAllRows`, `RowIsOnItsPage` and
      `PagesBeyondAreEmpty`. */
  function Paginate<T>(matching: seq<T>, page: Option<int>, limit: Option<int>): (p: Page<T>)
    requires ValidParam(page) && ValidParam(limit)
    ensures p.meta.page == page.GetOr(DefaultPage) && p.meta.limit == limit.GetOr(DefaultLimit)
    ensures p.meta.total == |matching|
    ensures p.data == Window(matching, p.meta.page, p.meta.limit)
    ensures p.meta.totalPages * p.meta.limit >= |matching|
    ensures p.meta.totalPages == 0 || (p.meta.totalPages - 1) * p.meta.limit < |matching|
  {
    var pg := page.GetOr(DefaultPage);
    var lim := limit.GetOr(DefaultLimit);
    Page(Window(matching, pg, lim), Meta(|matching|, pg, lim, TotalPages(|matching|, lim)))
  }

  /** Pages 1..n of `rows`, concatenated. */
  function Pages<T>(rows: seq<T>, limit: int, n: nat): seq<T>
    requires limit >= 1
  {
    if n == 0 then [] else Pages(rows, limit, n - 1) + Window(rows, n, limit)
  }

  lemma {:induction false} PagesArePrefix<T>(rows: seq<T>, limit: int, n: nat)
    requires limit >= 1
    ensures Pages(rows, limit, n) == rows[..Min(n * limit, |rows|)]
  {
    if n > 0 {
      PagesArePrefix(rows, limit, n - 1);
      var lo := Min((n - 1) * limit, |rows|);
      var hi := Min(n * limit, |rows|);
      assert Skip(n, limit) == (n - 1) * limit;
      assert (n - 1) * limit + limit == n * limit;
      assert Window(rows, n, limit) == rows[lo..hi];
      assert rows[..lo] + rows[lo..hi] == rows[..hi];
    }
  }

  /** Walking pages 1 to `totalPages` returns every row exactly once, in order. */
  lemma PagesCoverAllRows<T>(rows: seq<T>, limit: int)
    requires limit >= 1
    ensures Pages(rows, limit, TotalPages(|rows|, limit)) == rows
  {
    PagesArePrefix(rows, limit, TotalPages(|rows|, limit));
  }

  /** Row `i` is returned by page `i / limit + 1`, a page within `totalPages`, at position `i % limit`. */
  lemma RowIsOnItsPage<T>(rows: seq<T>, limit: int, i: int)
    requires limit >= 1 && 0 <= i < |rows|
    ensures 1 <= i / limit + 1 <= TotalPages(|rows|, limit)
    ensures i % limit < |Window(rows, i / limit + 1, limit)|
    ensures Window(rows, i / limit + 1, limit)[i % limit] == rows[i]
  {
    var p := i / limit + 1;
    var n := TotalPages(|rows|, limit);
    assert i == (i / limit) * limit + i % limit;
    assert Skip(p, limit) == (i / limit) * limit;
    if p > n {
      assert i / limit >= n;
      MulMono(n, i / limit, limit);
      assert false;
    }
  }

  lemma MulMono(a: int, b: int, c: int)
    requires 0 <= a <= b && c >= 0
    ensures a * c <= b * c
  {
  }

  /** A page past `totalPages` is empty. */
  lemma PagesBeyondAreEmpty<T>(rows: seq<T>, limit: int, page: int)
    requires limit >= 1 && page > TotalPages(|rows|, limit)
    ensures Window(rows, page, limit) == []
  {
    var n := TotalPages(|rows|, limit);
    MulMono(n, page - 1, limit);
  }
}

=== FILE: reservations.dfy ===
/** The reservation booking engine: admission of a booking (dates, active space, resource
    and client, available inventory, no overlap on the space), the inventory decrement,
    the guarded status machine of updates, and cancellation. */
module Reservations {
  import opened Results
  import opened Tables
  import Spaces
  import Resources

  datatype Status = Open | Approved | Closed | Canceled

  /** A `reservationResources` row: one unit of a resource held by the reservation. */
  datatype Line = Line(resourceId: int)

  datatype Reservation = Reservation(
    clientId: int, spaceId: int, resourceId: int, startDate: int, endDate: int, status: Status,
    closedAt: Option<int>, updatedAt: Option<int>, lines: seq<Line>)

  /** What the client lookup yields to the engine. */
  datatype ClientRef = ClientRef(isActive: int)

  /** The stores the engine reads and writes. */
  datatype Db = Db(
    spaces: Table<Spaces.Space>, resources: Table<Resources.Resource>, clients: map<int, ClientRef>,
    reservations: Table<Reservation>)

  datatype NewReservation = NewReservation(
    clientId: int, spaceId: int, resourceId: int, startDate: int, endDate: int, status: Status)

  /** A date of an update request: left out (the stored value stays), an explicit `null`,
      or an instant. */
  datatype Stamp = Omitted | Null | At(instant: int)

  /** An update request; every field is optional, and a date may be an explicit `null`. */
  datatype ReservationPatch = ReservationPatch(
    status: Option<Status>, startDate: Stamp, endDate: Stamp, closedAt: Stamp)

  /** A successful booking: the stores after it, and the reservation inserted. */
  datatype Booked = Booked(db: Db, id: int, reservation: Reservation)

  const DatesInverted := "Start date must be before end date"
  const SpaceInactive := "Space is not active"
  const ResourceInactive := "Resource is not active"
  const ClientInactive := "Client is not active"
  const ResourceUnavailable := "Resource is not available"
  const OverlapMessage := "Reservation overlaps with another space"
  const CreateFailed := "Error creating reservation"
  const ClientNotFound := "Client not found"
  const ReservationNotFound := "No Reservation found"
  const UpdateFailedPrefix := "Erro ao atualizar a reserva: "
  const CancelNotAllowed := "Not allowed to cancel reservation"
  const OnlyOpenApproved := "Only open reservations can be approved"
  const OnlyApprovedClosed := "Only approved reservations can be closed"
  const OnlyOpenCanceled := "Only open reservations can be canceled"
  /** The store's refusal of a null start or end date (wording of this model). */
  const NullDate := "Reservation dates must not be null"

  // ------------------------------------------------------------ overlap

  /** The overlap query: a reservation on the same space that starts before the requested
      end and ends after the requested start. Its status is not consulted. */
  predicate Overlaps(r: Reservation, spaceId: int, start: int, end: int) {
    r.spaceId == spaceId && r.startDate < end && r.endDate > start
  }

  predicate OverlapExists(t: Table<Reservation>, spaceId: int, start: int, end: int) {
    exists k :: k in t.rows && Overlaps(t.rows[k], spaceId, start, end)
  }

  /** `x` lies in the half-open interval `[lo, hi)`. */
  predicate During(x: int, lo: int, hi: int) {
    lo <= x < hi
  }

  /** For non-empty intervals, the overlap query holds exactly when the two half-open
      intervals share an instant on the same space; in particular intervals that only touch
      do not overlap. (A stored reservation with an inverted interval, which an update can
      produce, shares no instant with anything yet can still match the query.) */
  lemma OverlapMeansSharedInstant(r: Reservation, spaceId: int, start: int, end: int)
    requires r.startDate < r.endDate && start < end
    ensures Overlaps(r, spaceId, start, end) <==>
              r.spaceId == spaceId && exists x :: During(x, r.startDate, r.endDate) && During(x, start, end)
    ensures r.endDate == start || end == r.startDate ==> !Overlaps(r, spaceId, start, end)
  {
    if Overlaps(r, spaceId, start, end) {
      var x := if r.startDate <= start then start else r.startDate;
      assert During(x, r.startDate, r.endDate) && During(x, start, end);
    }
  }

  /** No two reservations of a space share an instant. */
  ghost predicate SchedulesDisjoint(t: Table<Reservation>) {
    forall i, j :: i in t.rows && j in t.rows && i != j ==>
      !Overlaps(t.rows[i], t.rows[j].spaceId, t.rows[j].startDate, t.rows[j].endDate)
  }

  // ------------------------------------------------------------- create

  /** The client gateway. */
  function FindClient(clients: map<int, ClientRef>, id: int): (r: Result<ClientRef>)
    ensures r.Success? <==> id in clients
    ensures r.Success? ==> r.value == clients[id]
    ensures r.Failure? ==> r.error.kind == NotFound
  {
    if id in clients then Success(clients[id]) else Failure(Error(NotFound, ClientNotFound))
  }

  /** The three lookups find their entities. */
  predicate Found(db: Db, dto: NewReservation) {
    dto.spaceId in db.spaces.rows && dto.resourceId in db.resources.rows && dto.clientId in db.clients
  }

  /** Every admission check passes. */
  predicate Admissible(db: Db, dto: NewReservation) {
    && Found(db, dto)
    && dto.startDate < dto.endDate
    && db.spaces.rows[dto.spaceId].isActive != 0
    && db.resources.rows[dto.resourceId].isActive != 0
    && db.clients[dto.clientId].isActive != 0
    && db.resources.rows[dto.resourceId].quantity >= 0
    && !OverlapExists(db.reservations, dto.spaceId, dto.startDate, dto.endDate)
  }

  /** The reservation a request inserts: the request's fields, its status included, and
      one resource line for the requested resource. */
  function Requested(dto: NewReservation): Reservation {
    Reservation(dto.clientId, dto.spaceId, dto.resourceId, dto.startDate, dto.endDate, dto.status,
                None, None, [Line(dto.resourceId)])
  }

  /** Takes one unit of a resource with a non-zero quantity by writing the whole record back
      through the resource update; a resource at zero is left alone. */
  function TakeUnit(t: Table<Resources.Resource>, id: int, res: Resources.Resource): (r: Result<Table<Resources.Resource>>)
    requires id in t.rows && t.rows[id] == res
    ensures res.quantity == 0 ==> r == Success(t)
    ensures res.quantity != 0 && r.Success? ==> r.value == Put(t, id, res.(quantity := res.quantity - 1))
    ensures r.Failure? ==> r.error.kind == BadRequest
  {
    if res.quantity != 0 then
      var s :- Resources.Update(t, id, Resources.FullPatch(res.(quantity := res.quantity - 1)));
      Success(s.table)
    else Success(t)
  }

  /** The body of `create` inside its error handler. */
  function Admit(db: Db, dto: NewReservation): Result<Booked> {
    var space :- Spaces.FindOne(db.spaces, dto.spaceId);
    var resource :- Resources.FindOne(db.resources, dto.resourceId);
    var client :- FindClient(db.clients, dto.clientId);
    if dto.startDate >= dto.endDate then Failure(Error(BadRequest, DatesInverted))
    else if space.isActive == 0 then Failure(Error(BadRequest, SpaceInactive))
    else if resource.isActive == 0 then Failure(Error(BadRequest, ResourceInactive))
    else if client.isActive == 0 then Failure(Error(BadRequest, ClientInactive))
    else if resource.quantity < 0 then Failure(Error(BadRequest, ResourceUnavailable))
    else if OverlapExists(db.reservations, dto.spaceId, dto.startDate, dto.endDate) then
      Failure(Error(BadRequest, OverlapMessage))
    else
      var resources :- TakeUnit(db.resources, dto.resourceId, resource);
      var row := Requested(dto);
      var (reservations, id) := Insert(db.reservations, row);
      Success(Booked(db.(resources := resources, reservations := reservations), id, row))
  }

  /** The error handler of `create`: a bad request passes through, anything else is
      reported as a generic creation failure. */
  function WrapCreate(e: Error): (w: Error)
    ensures w.kind == BadRequest
    ensures e.kind == BadRequest ==> w == e
    ensures e.kind != BadRequest ==> w.message == CreateFailed
  {
    if e.kind == BadRequest then e else Error(BadRequest, CreateFailed)
  }

  /** Books a space with one unit of a resource. */
  function Create(db: Db, dto: NewReservation): (r: Result<Booked>)
    // a missing space, resource or client is reported as the generic failure
    ensures !Found(db, dto) ==> r == Failure(Error(BadRequest, CreateFailed))
    // the checks, in order; the first failure is reported
    ensures Found(db, dto) && dto.startDate >= dto.endDate ==> r == Failure(Error(BadRequest, DatesInverted))
    ensures Found(db, dto) && dto.startDate < dto.endDate && db.spaces.rows[dto.spaceId].isActive == 0 ==>
              r == Failure(Error(BadRequest, SpaceInactive))
    ensures (Found(db, dto) && dto.startDate < dto.endDate && db.spaces.rows[dto.spaceId].isActive != 0
             && db.resources.rows[dto.resourceId].isActive == 0) ==>
              r == Failure(Error(BadRequest, ResourceInactive))
    ensures (Found(db, dto) && dto.startDate < dto.endDate && db.spaces.rows[dto.spaceId].isActive != 0
             && db.resources.rows[dto.resourceId].isActive != 0 && db.clients[dto.clientId].isActive == 0) ==>
              r == Failure(Error(BadRequest, ClientInactive))
    ensures (Found(db, dto) && dto.startDate < dto.endDate && db.spaces.rows[dto.spaceId].isActive != 0
             && db.resources.rows[dto.resourceId].isActive != 0 && db.clients[dto.clientId].isActive != 0
             && db.resources.rows[dto.resourceId].quantity < 0) ==>
              r == Failure(Error(BadRequest, ResourceUnavailable))
    ensures (Found(db, dto) && dto.startDate < dto.endDate && db.spaces.rows[dto.spaceId].isActive != 0
             && db.resources.rows[dto.resourceId].isActive != 0 && db.clients[dto.clientId].isActive != 0
             && db.resources.rows[dto.resourceId].quantity >= 0
             && OverlapExists(db.reservations, dto.spaceId, dto.startDate, dto.endDate)) ==>
              r == Failure(Error(BadRequest, OverlapMessage))
    // every failure is a bad request; past the checks only the inventory write can fail
    ensures r.Failure? ==> r.error.kind == BadRequest
    ensures Admissible(db, dto) && r.Failure? ==> r.error == Error(BadRequest, Resources.NameExists)
    // a success inserts the requested reservation and takes one unit of a stocked resource
    ensures r.Success? ==> Admissible(db, dto)
    ensures r.Success? ==>
              && r.value.reservation == Requested(dto)
              && r.value.db.reservations.rows == db.reservations.rows[r.value.id := r.value.reservation]
              && r.value.db.spaces == db.spaces && r.value.db.clients == db.clients
    ensures r.Success? && db.resources.rows[dto.resourceId].quantity == 0 ==> r.value.db.resources == db.resources
    ensures r.Success? && db.resources.rows[dto.resourceId].quantity > 0 ==>
              var res := db.resources.rows[dto.resourceId];
              r.value.db.resources == Put(db.resources, dto.resourceId, res.(quantity := res.quantity - 1))
    ensures r.Success? && Valid(db.reservations) ==>
              Valid(r.value.db.reservations) && r.value.id !in db.reservations.rows
  {
    match Admit(db, dto)
    case Success(b) => Success(b)
    case Failure(e) => Failure(WrapCreate(e))
  }

  /** With unique resource names, a booking succeeds exactly when every admission check
      passes: the inventory write-back never clashes on the resource's own name. */
  lemma CreateSucceedsIff(db: Db, dto: NewReservation)
    requires Resources.UniqueNames(db.resources)
    ensures Create(db, dto).Success? <==> Admissible(db, dto)
  {
    if Admissible(db, dto) {
      var res := db.resources.rows[dto.resourceId];
      Resources.WriteBackSucceeds(db.resources, dto.resourceId, res.(quantity := res.quantity - 1));
    }
  }

  /** A booking keeps the schedules of every space disjoint, and leaves every resource
      quantity non-negative when it was. */
  lemma CreateKeepsSchedulesDisjoint(db: Db, dto: NewReservation)
    requires Valid(db.reservations) && SchedulesDisjoint(db.reservations)
    ensures Create(db, dto).Success? ==> SchedulesDisjoint(Create(db, dto).value.db.reservations)
  {
    var r := Create(db, dto);
    if r.Success? {
      var rows := r.value.db.reservations.rows;
      var id := r.value.id;
      forall i, j | i in rows && j in rows && i != j
        ensures !Overlaps(rows[i], rows[j].spaceId, rows[j].startDate, rows[j].endDate)
      {
        if i == id {
          assert rows[j] == db.reservations.rows[j];
          assert !Overlaps(rows[j], dto.spaceId, dto.startDate, dto.endDate);
        } else if j == id {
          assert rows[i] == db.reservations.rows[i];
          assert !Overlaps(rows[i], dto.spaceId, dto.startDate, dto.endDate);
        } else {
          assert rows[i] == db.reservations.rows[i] && rows[j] == db.reservations.rows[j];
        }
      }
    }
  }

  /** A reservation blocks its interval on its space whatever its status: a canceled or
      closed booking still makes an otherwise admissible overlapping request fail. */
  lemma AnyStatusBlocks(db: Db, dto: NewReservation, k: int)
    requires Found(db, dto) && dto.startDate < dto.endDate
    requires db.spaces.rows[dto.spaceId].isActive != 0 && db.resources.rows[dto.resourceId].isActive != 0
    requires db.clients[dto.clientId].isActive != 0 && db.resources.rows[dto.resourceId].quantity >= 0
    requires k in db.reservations.rows && db.reservations.rows[k].spaceId == dto.spaceId
    requires exists x :: During(x, db.reservations.rows[k].startDate, db.reservations.rows[k].endDate)
                         && During(x, dto.startDate, dto.endDate)
    ensures Create(db, dto) == Failure(Error(BadRequest, OverlapMessage))
  {
    OverlapMeansSharedInstant(db.reservations.rows[k], dto.spaceId, dto.startDate, dto.endDate);
  }

  // ------------------------------------------------------------- update

  /** The status moves an update permits: approving needs an open reservation, closing an
      approved one, canceling is never permitted, and reopening or leaving the status out
      is always permitted. */
  predicate Allowed(current: Status, requested: Option<Status>) {
    match requested
    case None => true
    case Some(s) =>
      match s
      case Open => true
      case Approved => current == Open
      case Closed => current == Approved
      case Canceled => false
  }

  /** A supplied instant, or the stored date. */
  function DateOr(d: Stamp, stored: int): int {
    if d.At? then d.instant else stored
  }

  /** The supplied fields written over the stored ones. */
  function Apply(r: Reservation, patch: ReservationPatch): Reservation {
    r.(status := patch.status.GetOr(r.status), startDate := DateOr(patch.startDate, r.startDate),
       endDate := DateOr(patch.endDate, r.endDate),
       closedAt := match patch.closedAt
                   case Omitted => r.closedAt
                   case Null => None
                   case At(x) => Some(x))
  }

  /** The checks of `update`, inside its error handler; they yield the stored reservation. */
  function Check(t: Table<Reservation>, id: int, patch: ReservationPatch): (r: Result<Reservation>)
    ensures r.Success? ==> id in t.rows && r.value == t.rows[id]
  {
    if id !in t.rows then Failure(Error(NotFound, ReservationNotFound))
    else
      var current := t.rows[id];
      if patch.status == Some(Canceled) then Failure(Error(BadRequest, CancelNotAllowed))
      else if patch.status == Some(Approved) && current.status != Open then Failure(Error(BadRequest, OnlyOpenApproved))
      else if DatesInvertedIn(patch) then Failure(Error(BadRequest, DatesInverted))
      else if patch.status == Some(Closed) && current.status != Approved then Failure(Error(BadRequest, OnlyApprovedClosed))
      else Success(current)
  }

  /** The write of `update`, which the service returns without awaiting it, so a store error
      escapes the error handler: the dates are required columns, and a null one is refused. */
  function Write(t: Table<Reservation>, id: int, current: Reservation, patch: ReservationPatch, now: int)
    : Result<Saved<Reservation>>
    requires id in t.rows
  {
    if NullsADate(patch) then Failure(Error(StoreError, NullDate))
    else
      var row := if patch.status == Some(Closed) then Apply(current, patch).(closedAt := Some(now))
                 else Apply(current, patch);
      Success(Saved(Put(t, id, row), id, row))
  }

  /** The error handler of `update`: a bad request passes through, anything else becomes a
      bad request carrying the original message after a fixed prefix. */
  function WrapUpdate(e: Error): (w: Error)
    ensures w.kind == BadRequest
    ensures e.kind == BadRequest ==> w == e
    ensures e.kind != BadRequest ==> w.message == UpdateFailedPrefix + e.message
  {
    if e.kind == BadRequest then e else Error(BadRequest, UpdateFailedPrefix + e.message)
  }

  /** The date check `startDate >= endDate` as JavaScript evaluates it: it holds for two
      instants in the wrong order and for two explicit nulls (both compare as 0), and fails
      when a date is left out or only one is null. */
  predicate DatesInvertedIn(patch: ReservationPatch) {
    || (patch.startDate.At? && patch.endDate.At? && patch.startDate.instant >= patch.endDate.instant)
    || (patch.startDate == Null && patch.endDate == Null)
  }

  /** The request sets a date to null. */
  predicate NullsADate(patch: ReservationPatch) {
    patch.startDate == Null || patch.endDate == Null
  }

  function Update(t: Table<Reservation>, id: int, patch: ReservationPatch, now: int): (r: Result<Saved<Reservation>>)
    ensures id !in t.rows ==> r == Failure(Error(BadRequest, UpdateFailedPrefix + ReservationNotFound))
    // the checks, in order
    ensures id in t.rows && patch.status == Some(Canceled) ==> r == Failure(Error(BadRequest, CancelNotAllowed))
    ensures id in t.rows && patch.status == Some(Approved) && t.rows[id].status != Open ==>
              r == Failure(Error(BadRequest, OnlyOpenApproved))
    ensures (id in t.rows && DatesInvertedIn(patch) && patch.status != Some(Canceled)
             && !(patch.status == Some(Approved) && t.rows[id].status != Open)) ==>
              r == Failure(Error(BadRequest, DatesInverted))
    ensures (id in t.rows && !DatesInvertedIn(patch) && patch.status == Some(Closed) && t.rows[id].status != Approved) ==>
              r == Failure(Error(BadRequest, OnlyApprovedClosed))
    // a success writes the supplied fields, stamping the close time on a close
    ensures r.Success? ==> id in t.rows && r.value.id == id && r.value.table == Put(t, id, r.value.row)
    ensures r.Success? && patch.status == Some(Closed) ==> r.value.row == Apply(t.rows[id], patch).(closedAt := Some(now))
    ensures r.Success? && patch.status != Some(Closed) ==> r.value.row == Apply(t.rows[id], patch)
    ensures r.Success? && patch.status != Some(Closed) && patch.closedAt == Null ==> r.value.row.closedAt.None?
    // a request past the checks that nulls one date fails in the store, unwrapped
    ensures (id in t.rows && Allowed(t.rows[id].status, patch.status) && !DatesInvertedIn(patch)
             && NullsADate(patch)) ==> r == Failure(Error(StoreError, NullDate))
    ensures r.Success? <==>
              id in t.rows && Allowed(t.rows[id].status, patch.status) && !DatesInvertedIn(patch) && !NullsADate(patch)
    ensures r.Failure? ==> r.error.kind == BadRequest || r.error == Error(StoreError, NullDate)
  {
    match Check(t, id, patch)
    case Success(current) => Write(t, id, current, patch, now)
    case Failure(e) => Failure(WrapUpdate(e))
  }

  /** Update is the status machine `Allowed` guarded by the date check: for a stored
      reservation with consistent dates it succeeds exactly when the move is allowed and no
      date is nulled, and
      the status it stores is the requested one, or the current one when none is given. */
  lemma UpdateFollowsStatusMachine(t: Table<Reservation>, id: int, patch: ReservationPatch, now: int)
    requires id in t.rows && !DatesInvertedIn(patch)
    ensures Update(t, id, patch, now).Success? <==> Allowed(t.rows[id].status, patch.status) && !NullsADate(patch)
    ensures Update(t, id, patch, now).Success? ==>
              Update(t, id, patch, now).value.row.status == patch.status.GetOr(t.rows[id].status)
    ensures Update(t, id, patch, now).Success? && patch.status == Some(Closed) ==>
              Update(t, id, patch, now).value.row.closedAt == Some(now)
  {
  }

  /** The close time an update stores: a close stamps the current instant whatever the
      request says; otherwise a left-out `closedAt` keeps the stored one, an explicit `null`
      clears it, and an instant is stored as given. */
  lemma UpdateWritesCloseTime(t: Table<Reservation>, id: int, patch: ReservationPatch, now: int)
    requires Update(t, id, patch, now).Success?
    ensures var row := Update(t, id, patch, now).value.row;
            && (patch.status == Some(Closed) ==> row.closedAt == Some(now))
            && (patch.status != Some(Closed) && patch.closedAt == Omitted ==> row.closedAt == t.rows[id].closedAt)
            && (patch.status != Some(Closed) && patch.closedAt == Null ==> row.closedAt == None)
            && (patch.status != Some(Closed) && patch.closedAt.At? ==> row.closedAt == Some(patch.closedAt.instant))
  {
  }

  /** Reopening a closed reservation with an explicit `closedAt: null` clears its close
      time; leaving `closedAt` out keeps it. */
  lemma ReopenWithNullClearsCloseTime(t: Table<Reservation>, id: int, now: int)
    requires id in t.rows && t.rows[id].status == Closed && t.rows[id].closedAt.Some?
    ensures Update(t, id, ReservationPatch(Some(Open), Omitted, Omitted, Null), now).Success?
    ensures Update(t, id, ReservationPatch(Some(Open), Omitted, Omitted, Null), now).value.row.closedAt == None
    ensures Update(t, id, ReservationPatch(Some(Open), Omitted, Omitted, Omitted), now).value.row.closedAt == t.rows[id].closedAt
  {
  }

  /** Null dates under the date check: two nulls compare as equal and are refused as
      inverted; a single null passes the check and the store refuses the write, outside the
      error handler. */
  lemma NullDatesRefused(t: Table<Reservation>, id: int, status: Option<Status>, now: int)
    requires id in t.rows && Allowed(t.rows[id].status, status)
    ensures Update(t, id, ReservationPatch(status, Null, Null, Omitted), now) == Failure(Error(BadRequest, DatesInverted))
    ensures forall d :: Update(t, id, ReservationPatch(status, Null, At(d), Omitted), now) == Failure(Error(StoreError, NullDate))
    ensures forall d :: Update(t, id, ReservationPatch(status, At(d), Null, Omitted), now) == Failure(Error(StoreError, NullDate))
  {
  }

  /** Update never cancels: a reservation it leaves canceled was canceled already. */
  lemma UpdateNeverCancels(t: Table<Reservation>, id: int, patch: ReservationPatch, now: int)
    requires Update(t, id, patch, now).Success?
    ensures Update(t, id, patch, now).value.row.status == Canceled ==> t.rows[id].status == Canceled
  {
  }

  /** Neither closing nor canceling is final under update: any reservation, a closed or a
      canceled one included, is reopened by a request for status OPEN. */
  lemma AnyStatusReopens(t: Table<Reservation>, id: int, now: int)
    requires id in t.rows
    ensures Update(t, id, ReservationPatch(Some(Open), Omitted, Omitted, Omitted), now).Success?
    ensures Update(t, id, ReservationPatch(Some(Open), Omitted, Omitted, Omitted), now).value.row.status == Open
  {
  }

  /** A concrete witness, not a general property: update checks the dates only when both
      are supplied and never consults the other reservations, so moving one end alone can
      invert a reservation's interval or make it overlap another reservation of the space. */
  lemma UpdateCanBreakSchedule()
    ensures
      var a := Reservation(1, 1, 1, 10, 20, Open, None, None, [Line(1)]);
      var t := Table(map[1 := a], 2);
      var r := Update(t, 1, ReservationPatch(None, Omitted, At(5), Omitted), 0);
      r.Success? && r.value.row.startDate >= r.value.row.endDate
    ensures
      var a := Reservation(1, 1, 1, 10, 20, Open, None, None, [Line(1)]);
      var b := Reservation(1, 1, 1, 20, 30, Open, None, None, [Line(1)]);
      var t := Table(map[1 := a, 2 := b], 3);
      var r := Update(t, 1, ReservationPatch(None, Omitted, At(25), Omitted), 0);
      SchedulesDisjoint(t) && r.Success? && !SchedulesDisjoint(r.value.table)
  {
    var a := Reservation(1, 1, 1, 10, 20, Open, None, None, [Line(1)]);
    var b := Reservation(1, 1, 1, 20, 30, Open, None, None, [Line(1)]);
    var t := Table(map[1 := a, 2 := b], 3);
    var r := Update(t, 1, ReservationPatch(None, Omitted, At(25), Omitted), 0);
    assert r.value.table.rows[1].endDate == 25 && r.value.table.rows[2] == b;
    assert Overlaps(r.value.table.rows[1], b.spaceId, b.startDate, b.endDate);
  }

  // ------------------------------------------------------------- cancel

  /** Cancels an open reservation, stamping `updatedAt`; any other status is refused. */
  function Cancel(t: Table<Reservation>, id: int, now: int): (r: Result<Saved<Reservation>>)
    ensures id !in t.rows ==> r == Failure(Error(NotFound, ReservationNotFound))
    ensures r.Success? <==> id in t.rows && t.rows[id].status == Open
    ensures id in t.rows && r.Failure? ==> r.error == Error(BadRequest, OnlyOpenCanceled)
    ensures r.Success? ==> r.value.id == id && r.value.table == Put(t, id, r.value.row)
                           && r.value.row == t.rows[id].(status := Canceled, updatedAt := Some(now))
  {
    if id !in t.rows then Failure(Error(NotFound, ReservationNotFound))
    else if t.rows[id].status != Open then Failure(Error(BadRequest, OnlyOpenCanceled))
    else
      var row := t.rows[id].(status := Canceled, updatedAt := Some(now));
      Success(Saved(Put(t, id, row), id, row))
  }

  /** Cancellation keeps schedules disjoint (it moves no dates), and a second cancellation
      of the same reservation is refused. */
  lemma CancelKeepsSchedulesAndIsNotRepeatable(t: Table<Reservation>, id: int, now: int, later: int)
    requires SchedulesDisjoint(t)
    ensures Cancel(t, id, now).Success? ==> SchedulesDisjoint(Cancel(t, id, now).value.table)
    ensures Cancel(t, id, now).Success? ==>
              Cancel(Cancel(t, id, now).value.table, id, later) == Failure(Error(BadRequest, OnlyOpenCanceled))
  {
    var r := Cancel(t, id, now);
    if r.Success? {
      var rows := r.value.table.rows;
      forall i, j | i in rows && j in rows && i != j
        ensures !Overlaps(rows[i], rows[j].spaceId, rows[j].startDate, rows[j].endDate)
      {
        assert rows[i].spaceId == t.rows[i].spaceId && rows[i].startDate == t.rows[i].startDate
               && rows[i].endDate == t.rows[i].endDate;
        assert rows[j].spaceId == t.rows[j].spaceId && rows[j].startDate == t.rows[j].startDate
               && rows[j].endDate == t.rows[j].endDate;
      }
    }
  }

  // ----------------------------------------------------------- scenario

  /** A booking's life: A on space 1 for [10, 12) takes a projector from 5 to 4; B for
      [11, 13) on the same space is refused as overlapping; A is approved, then closed with
      its close time stamped, and can no longer be canceled. */
  lemma BookingLifecycle()
    ensures
      var db := Db(Table(map[1 := Spaces.Space("Room", "A room", 10, 1, None)], 2),
                   Table(map[1 := Resources.Resource("Projector", "HD", 5, 1)], 2),
                   map[1 := ClientRef(1)], Table(map[], 1));
      var a := Create(db, NewReservation(1, 1, 1, 10, 12, Open));
      && a.Success? && a.value.reservation.status == Open
      && a.value.db.resources.rows[1].quantity == 4
      && Create(a.value.db, NewReservation(1, 1, 1, 11, 13, Open)) == Failure(Error(BadRequest, OverlapMessage))
      && var approved := Update(a.value.db.reservations, a.value.id, ReservationPatch(Some(Approved), Omitted, Omitted, Omitted), 20);
      && approved.Success? && approved.value.row.status == Approved
      && var closed := Update(approved.value.table, a.value.id, ReservationPatch(Some(Closed), Omitted, Omitted, Omitted), 30);
      && closed.Success? && closed.value.row.status == Closed && closed.value.row.closedAt == Some(30)
      && Cancel(closed.value.table, a.value.id, 40) == Failure(Error(BadRequest, OnlyOpenCanceled))
  {
    var db := Db(Table(map[1 := Spaces.Space("Room", "A room", 10, 1, None)], 2),
                 Table(map[1 := Resources.Resource("Projector", "HD", 5, 1)], 2),
                 map[1 := ClientRef(1)], Table(map[], 1));
    var dtoA := NewReservation(1, 1, 1, 10, 12, Open);
    assert Admissible(db, dtoA);
    CreateSucceedsIff(db, dtoA);
    var a := Create(db, dtoA);
    var db1 := a.value.db;
    assert db1.reservations.rows == map[a.value.id := Requested(dtoA)];
    var dtoB := NewReservation(1, 1, 1, 11, 13, Open);
    assert Overlaps(db1.reservations.rows[a.value.id], 1, 11, 13);
    assert db1.resources.rows[1] == Resources.Resource("Projector", "HD", 4, 1);
  }
}

=== FILE: resources.dfy ===
/** The resource inventory: create with a unique name, filtered and paginated
    listing, lookup, partial update and soft delete. */
module Resources {
  import opened Results
  import opened Tables
  import opened Text
  import opened Pagination

  datatype Resource = Resource(name: string, description: string, quantity: int, isActive: int)

  /** A creation request; `isActive` is optional and passed to the store as given. */
  datatype NewResource = NewResource(name: string, description: string, quantity: int, isActive: Option<int>)

  /** The fields an update may supply; absent fields keep their stored values. */
  datatype ResourcePatch = ResourcePatch(
    name: Option<string>, description: Option<string>, quantity: Option<int>, isActive: Option<int>)

  datatype ResourceQuery = ResourceQuery(name: Option<string>, status: Option<int>, page: Option<int>, limit: Option<int>)

  /** `isActive.disabled`. */
  const Disabled := 0

  const NameRegistered := "Resource name already registered"
  const NameExists := "The resource name already exists"
  const ResourceNotFound := "Resource not found"

  predicate NameTaken(t: Table<Resource>, name: string) {
    exists id :: id in t.rows && t.rows[id].name == name
  }

  /** A row other than `id` holds `name`. */
  predicate NameHeldByOther(t: Table<Resource>, name: string, id: int) {
    exists k :: k in t.rows && k != id && t.rows[k].name == name
  }

  /** The database's unique index on the name. */
  ghost predicate UniqueNames(t: Table<Resource>) {
    forall i, j :: i in t.rows && j in t.rows && t.rows[i].name == t.rows[j].name ==> i == j
  }

  // ------------------------------------------------------------- create

  /** Creates a resource from the request as given. When the request leaves `isActive`
      out, the column default of the database schema applies; it is a parameter here. */
  function Create(t: Table<Resource>, dto: NewResource, columnDefault: int): (r: Result<Saved<Resource>>)
    ensures r.Failure? <==> NameTaken(t, dto.name)
    ensures r.Failure? ==> r.error == Error(BadRequest, NameRegistered)
    ensures r.Success? ==> r.value.table.rows == t.rows[r.value.id := r.value.row]
    ensures r.Success? ==> r.value.row.name == dto.name && r.value.row.description == dto.description
                           && r.value.row.quantity == dto.quantity
    ensures r.Success? && dto.isActive.Some? ==> r.value.row.isActive == dto.isActive.value
    ensures r.Success? && dto.isActive.None? ==> r.value.row.isActive == columnDefault
    ensures r.Success? && Valid(t) ==> Valid(r.value.table) && r.value.id !in t.rows
  {
    if NameTaken(t, dto.name) then Failure(Error(BadRequest, NameRegistered))
    else
      var row := Resource(dto.name, dto.description, dto.quantity, dto.isActive.GetOr(columnDefault));
      var (t', id) := Insert(t, row);
      Success(Saved(t', id, row))
  }

  // ------------------------------------------------------------ listing

  /** The `where` clause: the name filter applies when truthy, the status filter only
      when it is exactly 0 or 1. */
  predicate Matches(r: Resource, q: ResourceQuery) {
    && (Truthy(q.name) ==> Contains(r.name, q.name.value))
    && (q.status == Some(0) || q.status == Some(1) ==> r.isActive == q.status.value)
  }

  /** The rows the `where` clause selects, in listing order. */
  function Matching(t: Table<Resource>, q: ResourceQuery): (ms: seq<(int, Resource)>)
    ensures forall i :: 0 <= i < |ms| ==> ms[i].0 in t.rows && t.rows[ms[i].0] == ms[i].1 && Matches(ms[i].1, q)
    ensures Valid(t) ==> forall id :: id in t.rows && Matches(t.rows[id], q) ==> (id, t.rows[id]) in ms
  {
    var es := Entries(t);
    var ms := Select(es, r => Matches(r, q));
    assert Valid(t) ==> forall id :: id in t.rows && Matches(t.rows[id], q) ==> (id, t.rows[id]) in ms by {
      if Valid(t) {
        forall id | id in t.rows && Matches(t.rows[id], q)
          ensures (id, t.rows[id]) in ms
        {
          var k :| 0 <= k < |es| && es[k] == (id, t.rows[id]);
        }
      }
    }
    ms
  }

  function FindAll(t: Table<Resource>, q: ResourceQuery): (p: Page<(int, Resource)>)
    requires ValidParam(q.page) && ValidParam(q.limit)
    ensures p.meta.page == q.page.GetOr(1) && p.meta.limit == q.limit.GetOr(10)
    ensures p.meta.total == |Matching(t, q)|
    ensures p.data == Window(Matching(t, q), p.meta.page, p.meta.limit)
    ensures forall i :: 0 <= i < |p.data| ==> p.data[i].0 in t.rows && Matches(p.data[i].1, q)
  {
    var ms := Matching(t, q);
    var p := Paginate(ms, q.page, q.limit);
    WindowKeeps(ms, p.meta.page, p.meta.limit, (e: (int, Resource)) => e.0 in t.rows && Matches(e.1, q));
    p
  }

  /** A status other than 0 or 1 filters nothing out; 0 or 1 keeps exactly that status. */
  lemma StatusFilterOnlyForZeroOrOne(t: Table<Resource>, q: ResourceQuery)
    requires Valid(t)
    ensures q.status == Some(0) || q.status == Some(1) ==>
              forall i :: 0 <= i < |Matching(t, q)| ==> Matching(t, q)[i].1.isActive == q.status.value
    ensures !Truthy(q.name) && !(q.status == Some(0) || q.status == Some(1)) ==>
              forall id :: id in t.rows ==> (id, t.rows[id]) in Matching(t, q)
  {
  }

  // ------------------------------------------------------------- lookup

  function FindOne(t: Table<Resource>, id: int): (r: Result<Resource>)
    ensures r.Success? <==> id in t.rows
    ensures r.Success? ==> r.value == t.rows[id]
    ensures r.Failure? ==> r.error == Error(NotFound, ResourceNotFound)
  {
    if id in t.rows then Success(t.rows[id]) else Failure(Error(NotFound, ResourceNotFound))
  }

  // ------------------------------------------------------------- update

  /** The stored resource after an update: supplied fields replace the old ones; no
      timestamp is added. */
  function Apply(r: Resource, patch: ResourcePatch): Resource {
    Resource(patch.name.GetOr(r.name), patch.description.GetOr(r.description), patch.quantity.GetOr(r.quantity),
             patch.isActive.GetOr(r.isActive))
  }

  /** A patch carrying every field of `r`, as a caller writes back a whole record. */
  function FullPatch(r: Resource): ResourcePatch {
    ResourcePatch(Some(r.name), Some(r.description), Some(r.quantity), Some(r.isActive))
  }

  function Update(t: Table<Resource>, id: int, patch: ResourcePatch): (r: Result<Saved<Resource>>)
    ensures id !in t.rows ==> r == Failure(Error(NotFound, ResourceNotFound))
    ensures r.Success? <==> id in t.rows && !(Truthy(patch.name) && NameHeldByOther(t, patch.name.value, id))
    ensures id in t.rows && r.Failure? ==> r.error == Error(BadRequest, NameExists)
    ensures r.Success? ==> r.value.id == id && r.value.table == Put(t, id, r.value.row)
    ensures r.Success? ==> r.value.row == Apply(t.rows[id], patch)
  {
    if id !in t.rows then Failure(Error(NotFound, ResourceNotFound))
    else if Truthy(patch.name) && NameHeldByOther(t, patch.name.value, id) then Failure(Error(BadRequest, NameExists))
    else
      var row := Apply(t.rows[id], patch);
      Success(Saved(Put(t, id, row), id, row))
  }

  /** Writing a stored resource back with one field changed never clashes on its own
      name, and changes exactly that field. */
  lemma WriteBackSucceeds(t: Table<Resource>, id: int, changed: Resource)
    requires UniqueNames(t) && id in t.rows && changed.name == t.rows[id].name
    ensures Update(t, id, FullPatch(changed)).Success?
    ensures Update(t, id, FullPatch(changed)).value.row == changed
  {
  }

  // ------------------------------------------------------------- remove

  /** Soft delete: the row is marked disabled. Nothing is returned. */
  function Remove(t: Table<Resource>, id: int): (r: Result<Table<Resource>>)
    ensures r.Success? <==> id in t.rows
    ensures r.Failure? ==> r.error == Error(NotFound, ResourceNotFound)
    ensures r.Success? ==> r.value == Put(t, id, t.rows[id].(isActive := Disabled))
  {
    if id !in t.rows then Failure(Error(NotFound, ResourceNotFound))
    else Success(Put(t, id, t.rows[id].(isActive := Disabled)))
  }

  // --------------------------------------------------------- invariants

  /** Creating, updating (with a non-empty name, as request validation demands) and
      removing keep names unique. */
  lemma WritesKeepNamesUnique(t: Table<Resource>, dto: NewResource, d: int, id: int, patch: ResourcePatch)
    requires Valid(t) && UniqueNames(t)
    requires patch.name != Some("")
    ensures Create(t, dto, d).Success? ==> UniqueNames(Create(t, dto, d).value.table)
    ensures Update(t, id, patch).Success? ==> UniqueNames(Update(t, id, patch).value.table)
    ensures Remove(t, id).Success? ==> UniqueNames(Remove(t, id).value)
  {
  }
}

=== FILE: results.dfy ===
/** Outcomes of the services: a value, or one of the HTTP exceptions the
    services throw, each carrying the message the caller sees. */
module Results {

  datatype Option<+T> = None | Some(value: T) {
    function GetOr(default: T): T {
      match this
      case Some(v) => v
      case None => default
    }
  }

  /** The exception classes thrown by the services, and `StoreError` for an error the store
      itself raises on a write (a unique-index violation, a null written to a required
      column). `NotFound` also labels the store's own record-not-found errors (a failed
      `findUniqueOrThrow` or an update of a missing row). Store errors are not HTTP
      exceptions, no filter maps them, and an HTTP caller sees them as 500 responses. */
  datatype ErrorKind = BadRequest | Conflict | NotFound | InternalServerError | StoreError

  datatype Error = Error(kind: ErrorKind, message: string)

  /** A failure-compatible result, usable with `:-`. */
  datatype Result<+T> = Success(value: T) | Failure(error: Error) {
    predicate IsFailure() {
      Failure?
    }

    function PropagateFailure<U>(): Result<U>
      requires Failure?
    {
      Failure(error)
    }

    function Extract(): T
      requires Success?
    {
      value
    }
  }

  /** A JavaScript "truthy" optional string: present and non-empty. */
  predicate Truthy(s: Option<string>) {
    s.Some? && s.value != ""
  }
}

=== FILE: spaces.dfy ===
/** The space catalogue: create with a unique name and a positive capacity,
    filtered and paginated listing, lookup, partial update and soft delete. */
module Spaces {
  import opened Results
  import opened Tables
  import opened Text
  import opened Pagination

  datatype Space = Space(name: string, description: string, capacity: int, isActive: int, updatedAt: Option<int>)

  datatype NewSpace = NewSpace(name: string, description: string, capacity: int)

  /** The fields an update may supply; absent fields keep their stored values. */
  datatype SpacePatch = SpacePatch(
    name: Option<string>, description: Option<string>, capacity: Option<int>, isActive: Option<int>)

  datatype SpaceQuery = SpaceQuery(
    name: Option<string>, capacity: Option<int>, description: Option<string>, status: Option<string>,
    page: Option<int>, limit: Option<int>)

  const SpaceExists := "Space already exists"
  const CapacityTooSmall := "Capacity must be greater than or equal to 1"
  const CapacityTooSmallOnUpdate := "Capacity must be greater or equal to 1"
  const SpaceNotFound := "Space not found"
  const NameInUse := "Name already in use"
  /** The store's refusal of a write that would duplicate a name (wording of this model). */
  const NameIndexViolated := "Unique constraint failed on the fields: (`name`)"

  predicate NameTaken(t: Table<Space>, name: string) {
    exists id :: id in t.rows && t.rows[id].name == name
  }

  /** A row other than `id` holds `name`. */
  predicate NameHeldByOther(t: Table<Space>, name: string, id: int) {
    exists k :: k in t.rows && k != id && t.rows[k].name == name
  }

  /** The database's unique index on the name. */
  ghost predicate UniqueNames(t: Table<Space>) {
    forall i, j :: i in t.rows && j in t.rows && t.rows[i].name == t.rows[j].name ==> i == j
  }

  /** Every stored capacity is at least 1. */
  ghost predicate CapacitiesPositive(t: Table<Space>) {
    forall id :: id in t.rows ==> t.rows[id].capacity >= 1
  }

  // ------------------------------------------------------------- create

  /** Creates an active space; a taken name is reported before a bad capacity. */
  function Create(t: Table<Space>, dto: NewSpace): (r: Result<Saved<Space>>)
    ensures NameTaken(t, dto.name) ==> r == Failure(Error(Conflict, SpaceExists))
    ensures !NameTaken(t, dto.name) && dto.capacity < 1 ==> r == Failure(Error(BadRequest, CapacityTooSmall))
    ensures r.Success? <==> !NameTaken(t, dto.name) && dto.capacity >= 1
    ensures r.Success? ==> r.value.row == Space(dto.name, dto.description, dto.capacity, 1, None)
    ensures r.Success? ==> r.value.table.rows == t.rows[r.value.id := r.value.row]
    ensures r.Success? && Valid(t) ==> Valid(r.value.table) && r.value.id !in t.rows
  {
    if NameTaken(t, dto.name) then Failure(Error(Conflict, SpaceExists))
    else if dto.capacity < 1 then Failure(Error(BadRequest, CapacityTooSmall))
    else
      var row := Space(dto.name, dto.description, dto.capacity, 1, None);
      var (t', id) := Insert(t, row);
      Success(Saved(t', id, row))
  }

  // ------------------------------------------------------------ listing

  /** The `where` clause: each filter applies only when its parameter is truthy. */
  predicate Matches(s: Space, q: SpaceQuery) {
    && (Truthy(q.name) ==> Contains(s.name, q.name.value))
    && (q.capacity.Some? && q.capacity.value != 0 ==> s.capacity >= q.capacity.value)
    && (Truthy(q.description) ==> Contains(s.description, q.description.value))
    && (Truthy(q.status) ==> s.isActive == (if q.status.value == "active" then 1 else 0))
  }

  /** The rows the `where` clause selects, in listing order. */
  function Matching(t: Table<Space>, q: SpaceQuery): (ms: seq<(int, Space)>)
    ensures forall i :: 0 <= i < |ms| ==> ms[i].0 in t.rows && t.rows[ms[i].0] == ms[i].1 && Matches(ms[i].1, q)
    ensures Valid(t) ==> forall id :: id in t.rows && Matches(t.rows[id], q) ==> (id, t.rows[id]) in ms
  {
    var es := Entries(t);
    var ms := Select(es, s => Matches(s, q));
    assert Valid(t) ==> forall id :: id in t.rows && Matches(t.rows[id], q) ==> (id, t.rows[id]) in ms by {
      if Valid(t) {
        forall id | id in t.rows && Matches(t.rows[id], q)
          ensures (id, t.rows[id]) in ms
        {
          var k :| 0 <= k < |es| && es[k] == (id, t.rows[id]);
        }
      }
    }
    ms
  }

  function FindAll(t: Table<Space>, q: SpaceQuery): (p: Page<(int, Space)>)
    requires ValidParam(q.page) && ValidParam(q.limit)
    ensures p.meta.page == q.page.GetOr(1) && p.meta.limit == q.limit.GetOr(10)
    ensures p.meta.total == |Matching(t, q)|
    ensures p.data == Window(Matching(t, q), p.meta.page, p.meta.limit)
    ensures forall i :: 0 <= i < |p.data| ==> p.data[i].0 in t.rows && Matches(p.data[i].1, q)
  {
    var ms := Matching(t, q);
    var p := Paginate(ms, q.page, q.limit);
    WindowKeeps(ms, p.meta.page, p.meta.limit, (e: (int, Space)) => e.0 in t.rows && Matches(e.1, q));
    p
  }

  /** The filters as the listing applies them: status `active` keeps active rows,
      any other non-empty status keeps inactive ones, capacity keeps rows at least that
      large, and with no filters every row is counted. */
  lemma FindAllFilters(t: Table<Space>, q: SpaceQuery)
    requires ValidParam(q.page) && ValidParam(q.limit)
    ensures q.status == Some("active") ==> forall e :: e in FindAll(t, q).data ==> e.1.isActive == 1
    ensures q.status == Some("inactive") ==> forall e :: e in FindAll(t, q).data ==> e.1.isActive == 0
    ensures q.capacity.Some? && q.capacity.value >= 1 ==>
              forall e :: e in FindAll(t, q).data ==> e.1.capacity >= q.capacity.value
    ensures Valid(t) && !Truthy(q.name) && !Truthy(q.description) && !Truthy(q.status)
            && (q.capacity.None? || q.capacity.value == 0) ==>
              forall id :: id in t.rows ==> (id, t.rows[id]) in Matching(t, q)
  {
  }

  // ------------------------------------------------------------- lookup

  function FindOne(t: Table<Space>, id: int): (r: Result<Space>)
    ensures r.Success? <==> id in t.rows
    ensures r.Success? ==> r.value == t.rows[id]
    ensures r.Failure? ==> r.error == Error(NotFound, SpaceNotFound)
  {
    if id in t.rows then Success(t.rows[id]) else Failure(Error(NotFound, SpaceNotFound))
  }

  // ------------------------------------------------------------- update

  /** The stored space after an update: supplied fields replace the old ones and
      `updatedAt` is stamped. */
  function Apply(s: Space, patch: SpacePatch, now: int): Space {
    Space(patch.name.GetOr(s.name), patch.description.GetOr(s.description), patch.capacity.GetOr(s.capacity),
          patch.isActive.GetOr(s.isActive), Some(now))
  }

  /** The final write of an update. The name check skips an empty name, so the write can
      still meet the unique index on the name, which refuses it. */
  function Write(t: Table<Space>, id: int, row: Space): (r: Result<Saved<Space>>)
    requires id in t.rows
    ensures r.Failure? <==> NameHeldByOther(t, row.name, id)
    ensures r.Failure? ==> r.error == Error(StoreError, NameIndexViolated)
    ensures r.Success? ==> r == Success(Saved(Put(t, id, row), id, row))
  {
    if NameHeldByOther(t, row.name, id) then Failure(Error(StoreError, NameIndexViolated))
    else Success(Saved(Put(t, id, row), id, row))
  }

  /** The update as the service writes it: the capacity guard is `capacity && capacity < 1`,
      so a supplied capacity of 0 is falsy and passes; the lookup, the name check and the
      write then proceed as for any other capacity. */
  function UpdateAsWritten(t: Table<Space>, id: int, patch: SpacePatch, now: int): (r: Result<Saved<Space>>)
    ensures patch.capacity.Some? && patch.capacity.value < 0 ==> r == Failure(Error(BadRequest, CapacityTooSmallOnUpdate))
    ensures (patch.capacity.None? || patch.capacity.value >= 0) && id !in t.rows ==> r == Failure(Error(NotFound, SpaceNotFound))
    ensures ((patch.capacity.None? || patch.capacity.value >= 0) && id in t.rows
             && Truthy(patch.name) && NameHeldByOther(t, patch.name.value, id)) ==> r == Failure(Error(Conflict, NameInUse))
    ensures ((patch.capacity.None? || patch.capacity.value >= 0) && id in t.rows
             && !(Truthy(patch.name) && NameHeldByOther(t, patch.name.value, id))
             && NameHeldByOther(t, patch.name.GetOr(t.rows[id].name), id)) ==>
              r == Failure(Error(StoreError, NameIndexViolated))
    ensures r.Success? <==>
              && (patch.capacity.None? || patch.capacity.value >= 0)
              && id in t.rows
              && !(Truthy(patch.name) && NameHeldByOther(t, patch.name.value, id))
              && !NameHeldByOther(t, patch.name.GetOr(t.rows[id].name), id)
    ensures r.Success? ==> r.value.id == id && r.value.table == Put(t, id, r.value.row)
    ensures r.Success? ==> r.value.row == Apply(t.rows[id], patch, now)
  {
    if patch.capacity.Some? && patch.capacity.value != 0 && patch.capacity.value < 1 then
      Failure(Error(BadRequest, CapacityTooSmallOnUpdate))
    else if id !in t.rows then Failure(Error(NotFound, SpaceNotFound))
    else if Truthy(patch.name) && NameHeldByOther(t, patch.name.value, id) then Failure(Error(Conflict, NameInUse))
    else Write(t, id, Apply(t.rows[id], patch, now))
  }

  /** The update with the evident intent of the capacity guard: any supplied capacity
      below 1 is refused, before the lookup. */
  function Update(t: Table<Space>, id: int, patch: SpacePatch, now: int): (r: Result<Saved<Space>>)
    ensures patch.capacity.Some? && patch.capacity.value < 1 ==> r == Failure(Error(BadRequest, CapacityTooSmallOnUpdate))
    ensures (patch.capacity.None? || patch.capacity.value >= 1) && id !in t.rows ==> r == Failure(Error(NotFound, SpaceNotFound))
    ensures ((patch.capacity.None? || patch.capacity.value >= 1) && id in t.rows
             && Truthy(patch.name) && NameHeldByOther(t, patch.name.value, id)) ==> r == Failure(Error(Conflict, NameInUse))
    ensures ((patch.capacity.None? || patch.capacity.value >= 1) && id in t.rows
             && !(Truthy(patch.name) && NameHeldByOther(t, patch.name.value, id))
             && NameHeldByOther(t, patch.name.GetOr(t.rows[id].name), id)) ==>
              r == Failure(Error(StoreError, NameIndexViolated))
    ensures r.Success? <==>
              && (patch.capacity.None? || patch.capacity.value >= 1)
              && id in t.rows
              && !(Truthy(patch.name) && NameHeldByOther(t, patch.name.value, id))
              && !NameHeldByOther(t, patch.name.GetOr(t.rows[id].name), id)
    ensures r.Success? ==> r.value.id == id && r.value.table == Put(t, id, r.value.row)
    ensures r.Success? ==> r.value.row == Apply(t.rows[id], patch, now)
  {
    if patch.capacity.Some? && patch.capacity.value < 1 then Failure(Error(BadRequest, CapacityTooSmallOnUpdate))
    else if id !in t.rows then Failure(Error(NotFound, SpaceNotFound))
    else if Truthy(patch.name) && NameHeldByOther(t, patch.name.value, id) then Failure(Error(Conflict, NameInUse))
    else Write(t, id, Apply(t.rows[id], patch, now))
  }

  /** The two updates differ only on a supplied capacity of 0: the intended update refuses
      it first, while the service treats it like a patch without a capacity, except that a
      success stores capacity 0. */
  lemma UpdatesDifferOnlyAtZero(t: Table<Space>, id: int, patch: SpacePatch, now: int)
    ensures patch.capacity != Some(0) ==> UpdateAsWritten(t, id, patch, now) == Update(t, id, patch, now)
    ensures patch.capacity == Some(0) ==> Update(t, id, patch, now) == Failure(Error(BadRequest, CapacityTooSmallOnUpdate))
    ensures patch.capacity == Some(0) ==>
              var unsized := Update(t, id, patch.(capacity := None), now);
              && (UpdateAsWritten(t, id, patch, now).Failure? <==> unsized.Failure?)
              && (unsized.Failure? ==> UpdateAsWritten(t, id, patch, now) == unsized)
              && (unsized.Success? ==>
                    UpdateAsWritten(t, id, patch, now).value.row == unsized.value.row.(capacity := 0))
  {
  }

  /** Only the fields the update supplies change; `updatedAt` is always stamped. */
  lemma UpdateChangesOnlySuppliedFields(t: Table<Space>, id: int, patch: SpacePatch, now: int)
    requires Update(t, id, patch, now).Success?
    ensures var prev := t.rows[id];
            var row := Update(t, id, patch, now).value.row;
            && (patch.name.None? ==> row.name == prev.name)
            && (patch.description.None? ==> row.description == prev.description)
            && (patch.capacity.None? ==> row.capacity == prev.capacity)
            && (patch.isActive.None? ==> row.isActive == prev.isActive)
            && (patch.name.Some? ==> row.name == patch.name.value)
            && (patch.description.Some? ==> row.description == patch.description.value)
            && (patch.capacity.Some? ==> row.capacity == patch.capacity.value)
            && (patch.isActive.Some? ==> row.isActive == patch.isActive.value)
            && row.updatedAt == Some(now)
  {
  }

  /** Resubmitting a space's own name is never a clash. */
  lemma OwnNameNeverClashes(t: Table<Space>, id: int)
    requires UniqueNames(t) && id in t.rows
    ensures !NameHeldByOther(t, t.rows[id].name, id)
  {
  }

  /** The capacity-0 update the service lets through: the as-written update stores
      capacity 0, the intended update refuses it. */
  lemma ZeroCapacityUpdate()
    ensures var t := Table(map[1 := Space("Room A", "A room", 10, 1, None)], 2);
            var patch := SpacePatch(None, None, Some(0), None);
            && UpdateAsWritten(t, 1, patch, 5).Success?
            && UpdateAsWritten(t, 1, patch, 5).value.row.capacity == 0
            && CapacitiesPositive(t)
            && !CapacitiesPositive(UpdateAsWritten(t, 1, patch, 5).value.table)
            && Update(t, 1, patch, 5) == Failure(Error(BadRequest, CapacityTooSmallOnUpdate))
  {
    var t := Table(map[1 := Space("Room A", "A room", 10, 1, None)], 2);
    var patch := SpacePatch(None, None, Some(0), None);
    var r := UpdateAsWritten(t, 1, patch, 5);
    assert r.value.table.rows[1].capacity == 0;
  }

  /** An empty name skips the name check: renaming a space to the empty name that another
      space holds reaches the write, and the unique index refuses it. */
  lemma EmptyNameMeetsIndex(t: Table<Space>, id: int, other: int, now: int)
    requires id in t.rows && other in t.rows && other != id && t.rows[other].name == ""
    ensures UpdateAsWritten(t, id, SpacePatch(Some(""), None, None, None), now) == Failure(Error(StoreError, NameIndexViolated))
    ensures Update(t, id, SpacePatch(Some(""), None, None, None), now) == Failure(Error(StoreError, NameIndexViolated))
  {
    assert NameHeldByOther(t, "", id);
  }

  // ------------------------------------------------------------- remove

  /** Soft delete: the row stays, marked inactive and stamped. */
  function Remove(t: Table<Space>, id: int, now: int): (r: Result<Saved<Space>>)
    ensures r.Success? <==> id in t.rows
    ensures r.Failure? ==> r.error == Error(NotFound, SpaceNotFound)
    ensures r.Success? ==> r.value.id == id && r.value.table == Put(t, id, r.value.row)
    ensures r.Success? ==> r.value.row == t.rows[id].(isActive := 0, updatedAt := Some(now))
  {
    if id !in t.rows then Failure(Error(NotFound, SpaceNotFound))
    else
      var row := t.rows[id].(isActive := 0, updatedAt := Some(now));
      Success(Saved(Put(t, id, row), id, row))
  }

  // --------------------------------------------------------- invariants

  /** Creating, updating and removing keep names unique; this holds for the update as the
      service writes it as well as for the intended one. An empty name passes the name
      check, but the unique index then refuses the write. */
  lemma WritesKeepNamesUnique(t: Table<Space>, dto: NewSpace, id: int, patch: SpacePatch, now: int)
    requires Valid(t) && UniqueNames(t)
    ensures Create(t, dto).Success? ==> UniqueNames(Create(t, dto).value.table)
    ensures UpdateAsWritten(t, id, patch, now).Success? ==> UniqueNames(UpdateAsWritten(t, id, patch, now).value.table)
    ensures Update(t, id, patch, now).Success? ==> UniqueNames(Update(t, id, patch, now).value.table)
    ensures Remove(t, id, now).Success? ==> UniqueNames(Remove(t, id, now).value.table)
  {
  }

  /** With the intended guard, capacities stay at least 1 through every write. */
  lemma WritesKeepCapacitiesPositive(t: Table<Space>, dto: NewSpace, id: int, patch: SpacePatch, now: int)
    requires CapacitiesPositive(t)
    ensures Create(t, dto).Success? ==> CapacitiesPositive(Create(t, dto).value.table)
    ensures Update(t, id, patch, now).Success? ==> CapacitiesPositive(Update(t, id, patch, now).value.table)
    ensures Remove(t, id, now).Success? ==> CapacitiesPositive(Remove(t, id, now).value.table)
  {
  }
}

=== FILE: tables.dfy ===
/** A database table whose rows are keyed by an auto-incremented id.
    Listings (`findMany`, `findFirst` without an ordering) return rows in id order. */
module Tables {
  import opened Results

  datatype Table<T> = Table(rows: map<int, T>, nextId: int)

  /** A successful write: the table after it, and the id and contents of the row written. */
  datatype Saved<T> = Saved(table: Table<T>, id: int, row: T)

  /** Every stored id was handed out by the counter: ids start at 1 and stay below `nextId`. */
  ghost predicate Valid<T>(t: Table<T>) {
    && 1 <= t.nextId
    && forall id :: id in t.rows ==> 1 <= id < t.nextId
  }

  /** Inserts a row under the next id and returns that id. */
  function Insert<T>(t: Table<T>, row: T): (r: (Table<T>, int))
    ensures r.0.rows == t.rows[r.1 := row]
    ensures Valid(t) ==> Valid(r.0) && r.1 !in t.rows && r.1 >= 1
  {
    (Table(t.rows[t.nextId := row], t.nextId + 1), t.nextId)
  }

  /** Overwrites the row stored under an existing id. */
  function Put<T>(t: Table<T>, id: int, row: T): (r: Table<T>)
    requires id in t.rows
    ensures r.rows.Keys == t.rows.Keys
    ensures r.rows[id] == row
    ensures forall k :: k in t.rows && k != id ==> r.rows[k] == t.rows[k]
    ensures Valid(t) ==> Valid(r)
  {
    Table(t.rows[id := row], t.nextId)
  }

  /** The rows whose ids lie in `[lo, hi)`, paired with their ids, in increasing id order. */
  function EntriesBetween<T>(rows: map<int, T>, lo: int, hi: int): (es: seq<(int, T)>)
    decreases hi - lo
    ensures forall i :: 0 <= i < |es| ==> es[i].0 in rows && rows[es[i].0] == es[i].1 && lo <= es[i].0 < hi
    ensures forall id :: id in rows && lo <= id < hi ==> (id, rows[id]) in es
    ensures forall i, j :: 0 <= i < j < |es| ==> es[i].0 < es[j].0
  {
    if lo >= hi then []
    else
      var rest := EntriesBetween(rows, lo + 1, hi);
      if lo in rows then [(lo, rows[lo])] + rest else rest
  }

  /** The whole table as the store lists it: every row once, in id order. */
  function Entries<T>(t: Table<T>): (es: seq<(int, T)>)
    ensures forall i :: 0 <= i < |es| ==> es[i].0 in t.rows && t.rows[es[i].0] == es[i].1
    ensures Valid(t) ==> forall id :: id in t.rows ==> (id, t.rows[id]) in es
    ensures forall i, j :: 0 <= i < j < |es| ==> es[i].0 < es[j].0
  {
    EntriesBetween(t.rows, 1, t.nextId)
  }

  /** The entries of a listing whose rows satisfy `p` (a `where` clause), in listing order. */
  function Select<T>(es: seq<(int, T)>, p: T -> bool): (r: seq<(int, T)>)
    ensures forall i :: 0 <= i < |r| ==> r[i] in es && p(r[i].1)
    ensures forall i :: 0 <= i < |es| && p(es[i].1) ==> es[i] in r
    ensures |r| <= |es|
  {
    if es == [] then []
    else
      var rest := Select(es[1..], p);
      assert forall i :: 1 <= i < |es| && p(es[i].1) ==> es[i] in rest by {
        forall i | 1 <= i < |es| && p(es[i].1)
          ensures es[i] in rest
        {
          assert es[i] == es[1..][i - 1];
        }
      }
      if p(es[0].1) then [es[0]] + rest else rest
  }

  /** The lowest id in `[lo, hi)` whose row satisfies `p`. */
  function FirstBetween<T>(rows: map<int, T>, lo: int, hi: int, p: T -> bool): (m: Option<int>)
    decreases hi - lo
    ensures m.Some? ==> m.value in rows && lo <= m.value < hi && p(rows[m.value])
    ensures m.Some? ==> forall id :: lo <= id < m.value && id in rows ==> !p(rows[id])
    ensures m.None? ==> forall id :: lo <= id < hi && id in rows ==> !p(rows[id])
  {
    if lo >= hi then None
    else if lo in rows && p(rows[lo]) then Some(lo)
    else FirstBetween(rows, lo + 1, hi, p)
  }

  /** `findFirst` without an ordering: the id of the matching row with the lowest id. */
  function First<T>(t: Table<T>, p: T -> bool): (m: Option<int>)
    ensures m.Some? ==> m.value in t.rows && p(t.rows[m.value])
    ensures m.Some? && Valid(t) ==> forall id :: id in t.rows && id < m.value ==> !p(t.rows[id])
    ensures Valid(t) ==> (m.None? <==> forall id :: id in t.rows ==> !p(t.rows[id]))
  {
    FirstBetween(t.rows, 1, t.nextId, p)
  }
}

=== FILE: text.dfy ===
/** Character classes of JavaScript regular expressions and string helpers. */
module Text {

  /** `\d`: an ASCII decimal digit. */
  predicate IsDigit(c: char) {
    '0' <= c <= '9'
  }

  /** `[A-Za-z]`. */
  predicate IsAsciiLetter(c: char) {
    ('A' <= c <= 'Z') || ('a' <= c <= 'z')
  }

  /** `\s`: the white space and line terminators JavaScript's `\s` matches. */
  predicate IsJsWhitespace(c: char) {
    || c == '\t' || c == '\n' || c == '\U{000B}' || c == '\U{000C}' || c == '\r' || c == ' '
    || c == '\U{00A0}' || c == '\U{1680}' || ('\U{2000}' <= c <= '\U{200A}')
    || c == '\U{2028}' || c == '\U{2029}' || c == '\U{202F}' || c == '\U{205F}'
    || c == '\U{3000}' || c == '\U{FEFF}'
  }

  predicate AllDigits(s: string) {
    forall i :: 0 <= i < |s| ==> IsDigit(s[i])
  }

  /** The number of decimal digits in `s`. */
  function DigitCount(s: string): (n: nat)
    ensures n <= |s|
    ensures n == |s| <==> AllDigits(s)
  {
    if s == [] then 0 else (if IsDigit(s[0]) then 1 else 0) + DigitCount(s[1..])
  }

  lemma {:induction false} DigitCountAppend(a: string, b: string)
    ensures DigitCount(a + b) == DigitCount(a) + DigitCount(b)
  {
    if a == [] {
      assert a + b == b;
    } else {
      assert (a + b)[1..] == a[1..] + b;
      DigitCountAppend(a[1..], b);
    }
  }

  lemma {:induction false} DigitCountAllDigits(s: string)
    requires AllDigits(s)
    ensures DigitCount(s) == |s|
  {
    if s != [] {
      DigitCountAllDigits(s[1..]);
    }
  }

  /** `sub` occurs in `s` starting at position `i`. */
  predicate OccursAt(s: string, sub: string, i: int) {
    0 <= i && i + |sub| <= |s| && s[i..i + |sub|] == sub
  }

  /** `sub` occurs somewhere in `s` (a database `contains` filter). */
  predicate Contains(s: string, sub: string) {
    exists i :: 0 <= i <= |s| - |sub| && OccursAt(s, sub, i)
  }
}

=== FILE: user_formats.dfy ===
/** The two patterns a user account must match: the password pattern
    `^(?=.*[A-Za-z])(?=.*\d)[A-Za-z\d]{8,}$` and the phone pattern
    `^\+?[0-9\s\-()]{10,20}$`, written out by hand. */
module UserFormats {
  import opened Text

  // ----------------------------------------------------------- password

  predicate IsAlnum(c: char) {
    IsAsciiLetter(c) || IsDigit(c)
  }

  /** The password pattern as its parts read: at least eight characters, all ASCII letters
      or digits, at least one letter and at least one digit. The lookaheads scan with `.`,
      which skips line terminators, but the body admits only letters and digits, so a
      lookahead finds every letter and digit of an accepted string. */
  predicate IsPassword(s: string) {
    && |s| >= 8
    && (forall i :: 0 <= i < |s| ==> IsAlnum(s[i]))
    && (exists i :: 0 <= i < |s| && IsAsciiLetter(s[i]))
    && (exists i :: 0 <= i < |s| && IsDigit(s[i]))
  }

  /** Checks a password in one left-to-right scan. */
  method CheckPassword(s: string) returns (ok: bool)
    ensures ok <==> IsPassword(s)
  {
    var alnum, letter, digit := true, false, false;
    var i := 0;
    while i < |s|
      invariant 0 <= i <= |s|
      invariant alnum <==> forall k :: 0 <= k < i ==> IsAlnum(s[k])
      invariant letter <==> exists k :: 0 <= k < i && IsAsciiLetter(s[k])
      invariant digit <==> exists k :: 0 <= k < i && IsDigit(s[k])
    {
      alnum := alnum && IsAlnum(s[i]);
      letter := letter || IsAsciiLetter(s[i]);
      digit := digit || IsDigit(s[i]);
      i := i + 1;
    }
    ok := |s| >= 8 && alnum && letter && digit;
  }

  /** A password of letters only, or of digits only, is refused however long it is. */
  lemma SingleClassPasswordRefused(s: string)
    requires (forall i :: 0 <= i < |s| ==> IsAsciiLetter(s[i])) || AllDigits(s)
    ensures !IsPassword(s)
  {
  }

  // -------------------------------------------------------------- phone

  /** `[0-9\s\-()]`. */
  predicate IsPhoneChar(c: char) {
    IsDigit(c) || IsJsWhitespace(c) || c == '-' || c == '(' || c == ')'
  }

  predicate PhoneBody(b: string) {
    10 <= |b| <= 20 && forall i :: 0 <= i < |b| ==> IsPhoneChar(b[i])
  }

  /** The user phone pattern. `+` is not in the body's class, so a leading `+` must be the
      optional prefix. */
  predicate IsUserPhone(s: string) {
    if |s| > 0 && s[0] == '+' then PhoneBody(s[1..]) else PhoneBody(s)
  }

  /** The matcher accepts exactly an optional `+` followed by 10 to 20 body characters. */
  lemma UserPhoneGrammar(s: string)
    ensures IsUserPhone(s) <==> (PhoneBody(s) || exists b :: PhoneBody(b) && s == "+" + b)
  {
    if |s| > 0 && s[0] == '+' {
      assert s == "+" + s[1..];
      assert !IsPhoneChar(s[0]);
      forall b | PhoneBody(b) && s == "+" + b
        ensures PhoneBody(s[1..])
      {
        assert s[1..] == b;
      }
    } else {
      forall b | PhoneBody(b)
        ensures s != "+" + b
      {
        assert ("+" + b)[0] == '+';
      }
    }
  }

  /** The examples given with the account fields satisfy their patterns. */
  lemma DocumentedExamplesAccepted()
    ensures IsPassword("Password987")
    ensures IsUserPhone("+55 11 97524-6794")
  {
    var pw := "Password987";
    assert IsAsciiLetter(pw[0]) && IsDigit(pw[8]);
    assert forall i :: 0 <= i < |pw| ==> IsAlnum(pw[i]);
    var ph := "+55 11 97524-6794";
    var body := ph[1..];
    assert body == "55 11 97524-6794";
    assert forall i :: 0 <= i < |body| ==> IsPhoneChar(body[i]);
  }
}

=== FILE: users.dfy ===
/** User accounts: registration with a unique email and phone, a guarded full update, and
    soft delete. Password hashing is a parameter: the store only ever sees `hash(password)`. */
module Users {
  import opened Results
  import opened Tables

  datatype User = User(name: string, email: string, phone: string, password: string, isActive: int)

  /** A user as registration returns it: every stored field except the password. */
  datatype PublicUser = PublicUser(id: int, name: string, email: string, phone: string, isActive: int)

  datatype NewUser = NewUser(name: string, email: string, phone: string, password: string, isActive: Option<int>)

  /** An update request. The service reads email, phone and password unconditionally, so
      they are taken as given; name and status may be left out. */
  datatype UserPatch = UserPatch(name: Option<string>, email: string, phone: string, password: string, isActive: Option<int>)

  const EmailRegistered := "Email already registered"
  const PhoneRegistered := "Cellphone already registered"
  const UserInactive := "User is inactive"
  const UserNotFound := "No User found"
  const RecordNotFound := "Record to update not found."

  predicate EmailTaken(t: Table<User>, email: string) {
    exists id :: id in t.rows && t.rows[id].email == email
  }

  predicate PhoneTaken(t: Table<User>, phone: string) {
    exists id :: id in t.rows && t.rows[id].phone == phone
  }

  /** The unique index on the email. */
  ghost predicate UniqueEmails(t: Table<User>) {
    forall i, j :: i in t.rows && j in t.rows && t.rows[i].email == t.rows[j].email ==> i == j
  }

  /** No two users share a phone. The store does not enforce this; the service's checks do. */
  ghost predicate UniquePhones(t: Table<User>) {
    forall i, j :: i in t.rows && j in t.rows && t.rows[i].phone == t.rows[j].phone ==> i == j
  }

  function Public(id: int, u: User): PublicUser {
    PublicUser(id, u.name, u.email, u.phone, u.isActive)
  }

  /** Registers a user: a taken email is reported before a taken phone, the password is
      stored hashed, and the status defaults to active. */
  function Create(t: Table<User>, dto: NewUser, hash: string -> string): (r: Result<(Table<User>, PublicUser)>)
    ensures EmailTaken(t, dto.email) ==> r == Failure(Error(Conflict, EmailRegistered))
    ensures !EmailTaken(t, dto.email) && PhoneTaken(t, dto.phone) ==> r == Failure(Error(Conflict, PhoneRegistered))
    ensures r.Success? <==> !EmailTaken(t, dto.email) && !PhoneTaken(t, dto.phone)
    ensures r.Success? ==>
              var (t', u) := r.value;
              && u.id in t'.rows
              && t'.rows == t.rows[u.id := User(dto.name, dto.email, dto.phone, hash(dto.password), u.isActive)]
              && u == Public(u.id, t'.rows[u.id])
              && u.isActive == (if dto.isActive.Some? then dto.isActive.value else 1)
    ensures r.Success? && Valid(t) ==> Valid(r.value.0) && r.value.1.id !in t.rows
  {
    if EmailTaken(t, dto.email) then Failure(Error(Conflict, EmailRegistered))
    else if PhoneTaken(t, dto.phone) then Failure(Error(Conflict, PhoneRegistered))
    else
      var row := User(dto.name, dto.email, dto.phone, hash(dto.password), dto.isActive.GetOr(1));
      var (t', id) := Insert(t, row);
      Success((t', Public(id, row)))
  }

  /** Rewrites a user. A request that sets the status to 0 is refused before anything else;
      then any user holding the email, and then any user holding the phone, refuses it —
      the user being updated included. A missing id fails at the write. */
  function Update(t: Table<User>, id: int, patch: UserPatch, hash: string -> string): (r: Result<Saved<User>>)
    ensures patch.isActive == Some(0) ==> r == Failure(Error(Conflict, UserInactive))
    ensures patch.isActive != Some(0) && EmailTaken(t, patch.email) ==> r == Failure(Error(Conflict, EmailRegistered))
    ensures patch.isActive != Some(0) && !EmailTaken(t, patch.email) && PhoneTaken(t, patch.phone) ==>
              r == Failure(Error(Conflict, PhoneRegistered))
    ensures r.Success? <==>
              patch.isActive != Some(0) && !EmailTaken(t, patch.email) && !PhoneTaken(t, patch.phone) && id in t.rows
    ensures r.Success? ==>
              && r.value.id == id && r.value.table == Put(t, id, r.value.row)
              && r.value.row.email == patch.email && r.value.row.phone == patch.phone
              && r.value.row.password == hash(patch.password)
              && r.value.row.name == patch.name.GetOr(t.rows[id].name)
              && r.value.row.isActive == patch.isActive.GetOr(t.rows[id].isActive)
    ensures r.Failure? && patch.isActive != Some(0) && !EmailTaken(t, patch.email) && !PhoneTaken(t, patch.phone) ==>
              r.error == Error(NotFound, RecordNotFound)
  {
    if patch.isActive == Some(0) then Failure(Error(Conflict, UserInactive))
    else if EmailTaken(t, patch.email) then Failure(Error(Conflict, EmailRegistered))
    else if PhoneTaken(t, patch.phone) then Failure(Error(Conflict, PhoneRegistered))
    else if id !in t.rows then Failure(Error(NotFound, RecordNotFound))
    else
      var prev := t.rows[id];
      var row := User(patch.name.GetOr(prev.name), patch.email, patch.phone, hash(patch.password),
                      patch.isActive.GetOr(prev.isActive));
      Success(Saved(Put(t, id, row), id, row))
  }

  /** Resubmitting a user's own email is refused: the email check does not exclude the
      user being updated, so an update can only succeed by changing both email and phone. */
  lemma OwnEmailRefused(t: Table<User>, id: int, patch: UserPatch, hash: string -> string)
    requires id in t.rows && patch.isActive != Some(0)
    ensures patch.email == t.rows[id].email ==> Update(t, id, patch, hash) == Failure(Error(Conflict, EmailRegistered))
    ensures Update(t, id, patch, hash).Success? ==> patch.email != t.rows[id].email && patch.phone != t.rows[id].phone
  {
    if patch.email == t.rows[id].email {
      assert EmailTaken(t, patch.email);
    }
    if patch.phone == t.rows[id].phone {
      assert PhoneTaken(t, patch.phone);
    }
  }

  /** Soft delete: only the status changes, to 0. */
  function Remove(t: Table<User>, id: int): (r: Result<Saved<User>>)
    ensures r.Failure? <==> id !in t.rows
    ensures r.Failure? ==> r.error == Error(NotFound, UserNotFound)
    ensures r.Success? ==> r.value.id == id && r.value.row == t.rows[id].(isActive := 0)
                           && r.value.table == Put(t, id, r.value.row)
  {
    if id !in t.rows then Failure(Error(NotFound, UserNotFound))
    else
      var row := t.rows[id].(isActive := 0);
      Success(Saved(Put(t, id, row), id, row))
  }

  /** Registration keeps emails unique, and also keeps phones unique although only the
      service's checks stand behind that. */
  lemma CreateKeepsEmailsAndPhonesUnique(t: Table<User>, dto: NewUser, hash: string -> string)
    requires Valid(t) && UniqueEmails(t) && UniquePhones(t)
    ensures Create(t, dto, hash).Success? ==>
              UniqueEmails(Create(t, dto, hash).value.0) && UniquePhones(Create(t, dto, hash).value.0)
  {
    var c := Create(t, dto, hash);
    if c.Success? {
      var rows := c.value.0.rows;
      var nid := c.value.1.id;
      forall i, j | i in rows && j in rows && i != j
        ensures rows[i].email != rows[j].email && rows[i].phone != rows[j].phone
      {
        if i == nid {
          assert t.rows[j] == rows[j];
        } else if j == nid {
          assert t.rows[i] == rows[i];
        }
      }
    }
  }

  /** An update keeps emails and phones unique: the new ones are held by nobody. */
  lemma UpdateKeepsEmailsAndPhonesUnique(t: Table<User>, id: int, patch: UserPatch, hash: string -> string)
    requires UniqueEmails(t) && UniquePhones(t)
    ensures Update(t, id, patch, hash).Success? ==>
              UniqueEmails(Update(t, id, patch, hash).value.table) && UniquePhones(Update(t, id, patch, hash).value.table)
  {
    var u := Update(t, id, patch, hash);
    if u.Success? {
      var rows := u.value.table.rows;
      forall i, j | i in rows && j in rows && i != j
        ensures rows[i].email != rows[j].email && rows[i].phone != rows[j].phone
      {
        if i == id {
          assert t.rows[j] == rows[j];
        } else if j == id {
          assert t.rows[i] == rows[i];
        }
      }
    }
  }

  /** A soft delete keeps emails and phones unique: it changes only a status. */
  lemma RemoveKeepsEmailsAndPhonesUnique(t: Table<User>, id: int)
    requires UniqueEmails(t) && UniquePhones(t)
    ensures Remove(t, id).Success? ==> UniqueEmails(Remove(t, id).value.table) && UniquePhones(Remove(t, id).value.table)
  {
  }
}
